=== FILE: README.md ===
# AI_PPT image-to-presentation converter: a Dafny model

AI_PPT turns an uploaded picture of a slide into a PowerPoint file. This project models its decision logic as pure Dafny functions, and proves what the code promises about each step:

- **Image payload.** `validate_image_data` and `extract_image_bytes` accept a `data:image…` URI or bare base 64. The decoder is Python's non-validating `base64.b64decode` for a `str` argument. It is modelled as the CPython decoding loop: alphabet characters are fed into a 24-bit group and other ASCII characters are discarded. An `=` before a group's third character is skipped; after it, each `=` counts towards the group's padding, and decoding stops once the padding is complete. The three errors are distinguished. The encoder of section 4 of RFC 4648 is its partner for the round trip.
- **Fenced code.** The `re.search` for a fence tagged `python` (three backticks, the tag, a lazy group, three backticks, with `re.DOTALL`) is specified declaratively: the leftmost opener, then the nearest closing fence. A scan implementation is proved to meet that specification. `extract_vb_code` is the same search with the opener tag `vb` followed by a line feed, falling back to the whole stripped text.
- **The gate before `exec`.** Both handlers run three steps in order:
  1. the search for the fence tagged `python`, whose body is stripped;
  2. the `add_freeform` substring deny;
  3. the two-line import repair, when any of the four shape and line enums is not named.
- **`create_ppt_from_gpt_code`.** A separate entry point that neither handler calls. It does the fence search and the deny, but no import repair, then runs the code and returns `create_slide()`'s value.
- **The two `/convert` handlers.** One is the standalone converter; the other is the backend service variant, which also needs a username, skips the format check and saves a copy.
  - Each handler is a total function from the request and an outside world to an HTTP response and the ordered side effects it performed.
  - The outside world is the image check, the language model and `exec` followed by `create_slide()`.
  - The side effects are writing the temporary file, calling the model, executing code, saving a file and removing the temporary file.
  - Python's own behaviour on the decoded JSON is modelled where the handlers rely on it: `in` on a dict, list or string; subscripts that raise; truthiness. So are the texts of the exceptions that reach the outer `except` and become "Server error: …" with status 500.
- **Output naming.** The username is sanitised with `re.sub(r'[^a-zA-Z0-9_-]', '_', …)` and the file is named `<name>_<timestamp>.pptx`.
- **OCR path.**
  - The binarisation threshold map.
  - The token filter: `int(conf) >= 50` and non-blank text.
  - Scaling to inches and points.
  - One text box per element on an abstract presentation. `create_ppt_from_structure` is modelled on the same presentation.

The modules are:
- `Results`: Option and Result.
- `Text`: whitespace as `str.isspace` defines it, `strip`, substring search, `split` and `join`.
- `Base64`, `ImagePayload`, `Fences`, `ScriptGate`, `Slides`, `Naming` and `Ocr`.
- `Routes`: the two handlers.

The language model, `exec`, the image check, PIL's grey conversion and auto-contrast, Tesseract and the clock are parameters.

Behaviours worth knowing:
- The handlers do not catch an exception from the language model call. It reaches the outer clause as a 500 "Server error: …".
- The model call is never retried.
- A `data:image` string without a comma passes validation. It then fails in `extract_image_bytes` with an IndexError, which is reported as a 500. It is not reported as a decode error.

## Model

| member | source | states |
|---|---|---|
| ImagePayload.ValidateImageData | backend/utils.py:5-16 | falsy values and non-strings are rejected; every string starting with "data:image" is accepted without looking further; any other string is accepted exactly when it is non-empty and `b64decode` succeeds on it (the same function is duplicated at AI_Image_PPT_Converter/app.py lines 22-34) |
| ImagePayload.Truthy | AI_Image_PPT_Converter/app.py:111 | `not data` holds exactly for None, False, zero, the empty string, the empty list and the empty dict |
| ImagePayload.DecodeField | backend/utils.py:20-21 | decoding a field succeeds exactly when `b64decode` does, with the same bytes |
| ImagePayload.AcceptedBareExtracts | backend/utils.py:11-21 | a bare string the validator accepts always extracts, to the bytes the validator decoded |
| ImagePayload.AcceptedWithoutComma | backend/utils.py:9-20 | "data:image" is accepted, yet extraction fails because `split(',')` has no second field |
| ImagePayload.AcceptedWithBadPayload | backend/utils.py:9-20 | "data:image/png;base64,a" is accepted, yet its payload "a" fails to decode |
| ImagePayload.ExtractTakesSecondField | backend/utils.py:19-20 | for a data URI only the text between the first and second comma is decoded; anything after a second comma is ignored |
| ImagePayload.ExtractImageBytes | backend/utils.py:18-21 | a string not starting with "data:image" is decoded whole; a "data:image" string with no comma fails for want of a second field; otherwise the second comma-separated field is decoded (ExtractTakesSecondField and NoCommaFails state the same from the caller's side) |
| ImagePayload.NoCommaFails | backend/utils.py:19-20 | every "data:image" string without a comma fails extraction for want of a second field |
| ImagePayload.EncodedIsBare | backend/utils.py:19 | the encoder never produces the "data:image" prefix, because ':' is outside the alphabet |
| ImagePayload.RoundTripBare | backend/utils.py:18-21 | extracting the encoding of any bytes gives those bytes back; the validator accepts it exactly when the bytes are non-empty |
| ImagePayload.RoundTripDataUri | backend/utils.py:18-21 | a "data:image/png;base64," URI around an encoding is accepted and extracts to the original bytes |
| Base64.DecodeEncode | backend/utils.py:21 | `b64decode` inverts the encoder of section 4 of RFC 4648 on every byte sequence |
| Base64.Scan | backend/utils.py:20-21 | the decoding loop only appends to the bytes it started with; it yields at most three bytes per four characters of its input, noise and padding included (plus what the group in progress can still complete); it fails only for a dangling symbol or missing padding |
| Base64.Decode | backend/utils.py:20-21 | `b64decode` of a `str` rejects non-ASCII text, and only that, with its own error; a decoded result is at most three quarters of the input's length (DecodeEncode, DecodeSkipsNoise and PaddingExamples state its round trip, noise skipping and padding cases) |
| Base64.ScanEncode | backend/utils.py:21 | the decoding loop, run on an encoding after any earlier output, appends exactly the encoded bytes |
| Base64.DecodeSkipsNoise | backend/utils.py:12 | inserting an ASCII character outside the alphabet (and not '=') anywhere leaves the decode result, success or error, unchanged |
| Base64.PaddingExamples | backend/utils.py:12-15 | "abc" raises the incorrect-padding error, "a" the dangling-symbol error, and "abc=" decodes to two bytes |
| Base64.Encode | backend/utils.py:21 | the reference encoder: four characters per started group of three bytes, all from the alphabet or '=' |
| Text.IsSpace | backend/ocr_service.py:22 | `str.isspace` on one character: space, tab, line feed and carriage return are whitespace; digits, ASCII letters and '_' never are |
| Text.Strip | AI_Image_PPT_Converter/app.py:136 | the result has no leading or trailing whitespace and is no longer than the input; StripBounds and StripUnique pin it as the one trimmed middle left by cutting whitespace from both ends |
| Text.StripBounds | AI_Image_PPT_Converter/app.py:136 | the removed prefix and suffix are all whitespace and the kept middle is trimmed |
| Text.StripUnique | AI_Image_PPT_Converter/app.py:136 | any cut of an all-whitespace prefix and suffix that leaves a trimmed middle leaves exactly `strip`'s result |
| Text.StripTrimmed | AI_Image_PPT_Converter/app.py:136 | stripping a trimmed string changes nothing |
| Text.StripIdempotent | AI_Image_PPT_Converter/app.py:136 | stripping twice equals stripping once |
| Text.StripEmpty | backend/ocr_service.py:22 | `s.strip()` is empty exactly when every character of `s` is whitespace |
| Text.FindFrom | AI_Image_PPT_Converter/app.py:132 | the least occurrence at or after the start position, or none at all |
| Text.Split | backend/utils.py:20 | `split` returns at least one field and no field contains the separator |
| Text.SplitHead | backend/utils.py:20 | splitting `x + sep + t` with no separator in `x` yields `x` followed by the fields of `t` |
| Text.SplitNoSeparator | backend/utils.py:20 | a string without the separator splits into itself alone |
| Text.Join | backend/pptx_service.py:16 | `"\n".join`: no parts give ""; the first part begins the result; two or more parts put the separator in it, and for separator-free parts only then (SplitJoin states that `split` inverts it) |
| Text.SplitJoin | backend/pptx_service.py:16 | splitting the joined text of a non-empty list of separator-free parts returns the list |
| Fences.Search | AI_Image_PPT_Converter/app.py:132 | the span returned is the leftmost opener with the nearest closing fence after it (the lazy group); none is returned exactly when no opener is followed by a fence |
| Fences.Group | AI_Image_PPT_Converter/app.py:132-136 | there is a group exactly when some opener is followed by a closing fence, and then it is the text between the leftmost opener and the first closing fence after it, which never contains a fence |
| Fences.NoFenceBeforeCloser | AI_Image_PPT_Converter/app.py:132 | between the opener of the first match and its closer there is no fence |
| Fences.PythonCode | AI_Image_PPT_Converter/app.py:132-136 | the extracted code is the stripped text between the first fence tagged `python` and the first closing fence after it, so trimmed and fence-free; there is none exactly when no such opener is followed by a closing fence |
| Fences.TagSuffixKept | AI_Image_PPT_Converter/app.py:132-136 | text glued to the tag stays: a fence tagged `python3` around `x=1` yields the code starting with "3" |
| Fences.VbCode | backend/gpt_service.py:66-73 | total; the stripped group of the first fence tagged `vb` and a line feed, which then contains no three-backtick fence, or else the whole stripped input; always trimmed |
| Fences.NoFenceNoMatch | backend/gpt_service.py:70-73 | text without a fence has no match for either opener |
| Fences.VbCodeIdempotent | backend/gpt_service.py:66-73 | applying `extract_vb_code` to its own output returns that output |
| Fences.VbFallbackExample | backend/gpt_service.py:73 | a reply fenced with the tag `VB` comes back whole, fences included |
| ScriptGate.HeaderHasRequiredNames | AI_Image_PPT_Converter/app.py:142-149 | the two-line header names all four enums |
| ScriptGate.HeaderLacksForbidden | AI_Image_PPT_Converter/app.py:146-149 | the header does not contain "add_freeform" |
| ScriptGate.EnsureImports | AI_Image_PPT_Converter/app.py:142-149 | afterwards all four names occur; the code is unchanged exactly when it already named them all; the original code is always the suffix |
| ScriptGate.EnsureImportsIdempotent | AI_Image_PPT_Converter/app.py:142-149 | repairing twice is repairing once |
| ScriptGate.EnsureImportsKeepsForbidden | AI_Image_PPT_Converter/app.py:138-149 | repaired code contains "add_freeform" exactly when the original did |
| ScriptGate.PrepareCode | AI_Image_PPT_Converter/app.py:132-149 | no fence gives the no-code rejection; a fenced body mentioning "add_freeform" gives the freeform rejection; any other body becomes the import-repaired code, which never mentions "add_freeform" and names all four enums |
| ScriptGate.CreatePptFromGptCode | backend/pptx_service.py:20-45 | the two ValueErrors for no fence and for "add_freeform" come before `exec`; a fenced body without "add_freeform" is always executed, exactly as trimmed (no import repair); an exception from `exec` or from `create_slide()` propagates unchanged; a missing `create_slide` gives the third ValueError; otherwise `create_slide()`'s value is returned unchecked |
| Slides.FromStructure | backend/pptx_service.py:11-17 | one "Title and Content" slide titled `title` with a body and no added shapes |
| Slides.StructureParagraphs | backend/pptx_service.py:16 | for a non-empty list of single-line bullets, the body's paragraphs are the bullets in order |
| Slides.StructureEmptyBullets | backend/pptx_service.py:16 | an empty bullet list gives one empty paragraph |
| Slides.TextBoxes | backend/pptx_service.py:54-65 | one text box per element, in order, each reading back as that element |
| Slides.FromElements | backend/pptx_service.py:50-67 | one blank slide with exactly one text box per element, in element order, with that element's text, geometry and font size |
| Naming.Sanitize | backend/app/services/pptx_service.py:89 | same length as the username; only `[A-Za-z0-9_-]`; allowed characters are kept in place and every other becomes '_' |
| Naming.SanitizeFixesAllowed | backend/app/services/pptx_service.py:89 | a name already inside the class is its own sanitisation |
| Naming.SanitizeIdempotent | backend/app/services/pptx_service.py:89 | sanitising twice equals sanitising once |
| Naming.FilenameIsPlain | backend/app/services/pptx_service.py:99-101 | for a digits-and-underscore timestamp the filename has no '/' or '\\', its only '.' begins ".pptx", and it starts with the sanitised name |
| Naming.Filename | backend/app/services/pptx_service.py:99-101 | the filename is the sanitised username, '_', the timestamp and ".pptx", each at its place and nothing more (FilenameIsPlain derives that it is one path component) |
| Ocr.Binarize | backend/ocr_service.py:10 | the output is 0 or 255, and 0 exactly below the threshold 150 |
| Ocr.BinarizeMonotone | backend/ocr_service.py:10 | the threshold map is monotone |
| Ocr.BinarizeIdempotent | backend/ocr_service.py:10 | 0 and 255 are fixed, so binarising twice is binarising once |
| Ocr.BinarizeImage | backend/ocr_service.py:10 | same shape, every pixel mapped, the result is black and white |
| Ocr.PreprocessImage | backend/ocr_service.py:7-11 | whatever the grey conversion and auto-contrast do, the result is black and white |
| Ocr.Truncate | backend/ocr_service.py:22 | `int(x)` truncates toward zero: the result is within one of `x` and no further from zero than `x` |
| Ocr.KeepAsWritten | backend/ocr_service.py:22-23 | a token is kept exactly when `int(conf) >= 50` and its stripped text is non-empty, which is the same as `conf >= 50` |
| Ocr.ToElement | backend/ocr_service.py:25-37 | the element's text is the token as recognised, its geometry times 100 is the pixel geometry, and its font size is the pixel height times 1.3 |
| Ocr.KeptIndices | backend/ocr_service.py:21-23 | no more positions than tokens, all in range, strictly increasing |
| Ocr.KeptIndicesAreKept | backend/ocr_service.py:21-23 | every listed position holds a kept token |
| Ocr.KeptIndicesComplete | backend/ocr_service.py:21-23 | every kept token's position is listed |
| Ocr.Elements | backend/ocr_service.py:17-40 | one element per kept token, in recognition order |
| Ocr.AnalyzeWithOcr | backend/ocr_service.py:13-40 | the elements are exactly those of the tokens the engine recognises in the preprocessed image and the filter keeps, in recognition order |
| Ocr.CollectElements | backend/ocr_service.py:17-40 | the loop appending elements computes `Elements` and never yields more elements than tokens |
| Ocr.RunOcrAndBuildPptx | backend/ocr_service.py:42-44 | one slide with exactly one text box per kept token, each carrying that token's element |
| Ocr.ConfidenceExample | backend/ocr_service.py:22-23 | of a word at confidence 80 and one at 30, only the first survives |
| Routes.ServerError | AI_Image_PPT_Converter/app.py:187-188 | status 500 with the "Server error: " prefix |
| Routes.ExecutionError | AI_Image_PPT_Converter/app.py:184-185 | status 400 with a message that cannot be mistaken for a server error |
| Routes.HasKey | AI_Image_PPT_Converter/app.py:111 | `key in v` succeeds for dicts (keys), lists (elements) and strings (substrings), and raises for every other JSON value |
| Routes.Subscript | AI_Image_PPT_Converter/app.py:114 | `v[key]` yields a value exactly for a dict holding the key, and then that key's value |
| Routes.LookupAfterMembership | AI_Image_PPT_Converter/app.py:111-114 | after a successful membership test the lookup succeeds exactly for a dict |
| Routes.Extract | AI_Image_PPT_Converter/app.py:117 | extraction succeeds exactly for a string whose `extract_image_bytes` succeeds, with those bytes |
| Routes.TypeName | backend/app/services/pptx_service.py:88-89 | the type name in a TypeError message tells a string, a dict, a list and None apart from every other JSON value |
| Routes.ExtractMessage | backend/utils.py:19-21 | the missing second field, the bad padding and the non-ASCII failures each produce their own exception text and no other failure shares it |
| Routes.Admit | AI_Image_PPT_Converter/app.py:107-112 | a non-JSON request is refused first with 400 "Request must be JSON"; a falsy body, or one without "image", is 400 "No image provided"; a body that fails to parse, or whose membership test raises, is a 500 with that message; admission succeeds exactly for a JSON body that parses, is truthy and holds "image", and passes that body on |
| Routes.Deliver | AI_Image_PPT_Converter/app.py:168-182 | an attachment exactly for an object whose save succeeded, carrying that deck and named "output.pptx" or the given name; a file is saved only with a name; otherwise a 400 refusal |
| Routes.RunCode | AI_Image_PPT_Converter/app.py:163-185 | an exception from `exec` or `create_slide()` is a 400 "Execution error: …"; a missing `create_slide` is 400 "Missing create_slide function"; a returned object always goes to delivery, and only a returned object does |
| Routes.RejectionResponse | AI_Image_PPT_Converter/app.py:133-139 | both gate failures are 400s, "No valid Python code generated" exactly for a missing fence and the `add_freeform` message exactly for the deny |
| Routes.Respond | AI_Image_PPT_Converter/app.py:138-185 | a gate failure is answered with its own refusal and runs nothing; otherwise the gated code is executed and the answer is what `RunCode` gives for that run; an attachment carries the deck the executed code's object saved; every error is a 400 refusal |
| Routes.Consult | AI_Image_PPT_Converter/app.py:128-185 | a model exception is the only source of a 500; an empty reply is refused without running anything; anything executed is the gated code of the reply |
| Routes.Generate | AI_Image_PPT_Converter/app.py:119-185 | no effect at all exactly when the image check fails, which gives 400 "Invalid image data"; errors are classified and a 500 carries the model's exception |
| Routes.GenerateEffects | AI_Image_PPT_Converter/app.py:124-185 | the temporary file and the model call come first; at most one execution, of the gated code, follows; a save happens only with a name |
| Routes.GenerateAttachment | AI_Image_PPT_Converter/app.py:163-182 | an attachment comes only after the executed code's `create_slide()` returned an object whose save wrote that deck, under the right name |
| Routes.Cleanup | AI_Image_PPT_Converter/app.py:189-194 | the `finally` clause keeps the response and the effects so far, adds at most one effect, leaves the removal last whenever a temporary file was written, and changes nothing when none was (CleanupLifecycle states the whole lifecycle) |
| Routes.CleanupLifecycle | AI_Image_PPT_Converter/app.py:189-194 | after the `finally` clause the temporary file, if written, is removed, and removed last |
| Routes.Convert | AI_Image_PPT_Converter/app.py:104-194 | a refused admission is answered as is with no effect; an image failing the format check is 400 "Invalid image format" with no effect; any effect at all means the image passed the format check and extracted (ConvertRemovesTemp, ConvertExecutesGatedCode, ConvertErrorsClassified, ConvertAttachment and ConvertCheckOrder state the rest) |
| Routes.ConvertService | backend/app/services/pptx_service.py:73-174 | a refused admission is answered as is with no effect; a body without "username" is 400 "Username is required" with no effect; any effect at all means the username was a string and the image extracted (ServiceRemovesTemp, ServiceExecutesGatedCode, ServiceErrorsClassified, ServiceAttachment and ServiceDecodesUnchecked state the rest) |
| Routes.ConvertRemovesTemp | AI_Image_PPT_Converter/app.py:104-194 | the standalone handler writes the temporary file only after every image check passed, and always removes it last |
| Routes.ServiceRemovesTemp | backend/app/services/pptx_service.py:73-174 | the same temporary-file discipline for the service handler |
| Routes.CleanupKeepsExecution | AI_Image_PPT_Converter/app.py:189-194 | the `finally` clause neither adds nor moves an execution |
| Routes.CleanupExecutes | AI_Image_PPT_Converter/app.py:119-194 | the only executed code is the third effect and is the gated code of the model's reply |
| Routes.ConvertExecutesGatedCode | AI_Image_PPT_Converter/app.py:104-194 | the standalone handler executes at most one piece of code, and only the gated code for the request's image |
| Routes.ServiceExecutesGatedCode | backend/app/services/pptx_service.py:73-174 | the same for the service handler |
| Routes.GatedCodeIsSafe | AI_Image_PPT_Converter/app.py:138-149 | executed code never mentions "add_freeform" and names all four enums |
| Routes.SameCodeInBothHandlers | backend/app/services/pptx_service.py:114-127 | when both handlers execute code for the same request, it is the same code |
| Routes.ConvertErrorsClassified | AI_Image_PPT_Converter/app.py:104-188 | every error of the standalone handler is 400 or 500, and 500 exactly when the message has the server prefix |
| Routes.ServiceErrorsClassified | backend/app/services/pptx_service.py:73-167 | the same classification for the service handler |
| Routes.CleanupAttachment | AI_Image_PPT_Converter/app.py:163-194 | an attachment after cleanup comes with exactly the file, model call, execution, optional save and removal effects |
| Routes.CleanupSavesNothing | AI_Image_PPT_Converter/app.py:173-182 | without a name the standalone path saves no file |
| Routes.ConvertAttachment | AI_Image_PPT_Converter/app.py:163-182 | the standalone handler answers with "output.pptx" only when the gated code ran and its object saved that deck; it never writes a file |
| Routes.ConvertRunsGatedCode | AI_Image_PPT_Converter/app.py:114-185 | a request whose image passes the format check, extracts and verifies, and whose model reply gates to some code, is answered with exactly what running that code gives: the attachment "output.pptx" when its object saves, otherwise the execution or delivery refusal |
| Routes.ServiceRunsGatedCode | backend/app/services/pptx_service.py:84-164 | the same for the service handler with a string username, delivering under the sanitised username and timestamp |
| Routes.ServiceAttachment | backend/app/services/pptx_service.py:143-161 | the service handler's attachment is named after the sanitised string username and the timestamp, and that file was saved before answering |
| Routes.SharedAdmission | backend/app/services/pptx_service.py:77-83 | both handlers run the same first checks and stop there with the same answer and no effect |
| Routes.UsernameBeforeImage | backend/app/services/pptx_service.py:82-85 | with an image but no username the service handler refuses with "Username is required" and does nothing |
| Routes.DataUriWithoutComma | AI_Image_PPT_Converter/app.py:114-117 | "data:image" without a comma passes the format check and fails as a 500 "list index out of range" with no effect |
| Routes.StringBodyMentioningImage | AI_Image_PPT_Converter/app.py:110-114 | a JSON string body containing "image" passes the presence check and the lookup raises a 500 |
| Routes.ObjectWithoutSave | AI_Image_PPT_Converter/app.py:170-171 | an object without `save` is refused as "Invalid presentation object" by the standalone handler, and as an execution error by the service handler |
| Routes.ConvertCheckOrder | AI_Image_PPT_Converter/app.py:114-139 | format, image check, empty reply, missing fence and `add_freeform` are checked in that order; the first failure alone decides the 400 refusal, with the exact effects and no execution |
| Routes.ServiceDecodesUnchecked | backend/app/services/pptx_service.py:92-96 | without a format check an undecodable image is a 500 with the decoder's message, and decodable non-image bytes are 400 "Invalid image data" |
| Routes.RespondVariants | backend/app/services/pptx_service.py:145-153 | after the gate the variants differ only once `create_slide()` returned, and the standalone effects are a prefix of the service's |
| Routes.ConsultVariants | backend/app/services/pptx_service.py:108-153 | the same after the model call |
| Routes.VariantsAgreeBeforeDelivery | backend/app/services/pptx_service.py:92-153 | for the same bytes and outside world the two handlers answer alike until `create_slide()` has returned, and the standalone effects are a prefix of the service's |

## Left out

- Language model calls (`analyze_image`, `analyze_with_gemini_vb`) and their prompts are network calls. The reply is an input: an exception or a content string.
- `exec` of generated code is an oracle that raised, finished without `create_slide`, or finished with it. The model claims no sandboxing: the globals dict does not stop `__builtins__` or imports.
- PIL (`verify`, `convert("L")`, `autocontrast`), pytesseract and python-pptx internals (`Inches`, `Pt`, layouts, serialisation) are uninterpreted. Shapes keep inches and points symbolically.
- `datetime.now()` is replaced by a timestamp parameter; the file-name lemma assumes it has the `%Y%m%d_%H%M%S` shape.
- Ocr.ToElement: floating-point division and multiplication are modelled as exact `real` arithmetic; no rounding is modelled.
- Base64.Decode: the character count that newer Python versions embed in the "1 more than a multiple of 4" message is not modelled.
- Routes.ConvertService: the TypeError text for a non-string username follows recent Python versions; other Python versions word it differently.
- Routes.TypeName: JSON numbers are `real`; a number without a fractional part is taken to be an `int`.
- Routes.Deliver: the service handler's two saves (to the stream and to the file) share one outcome, so a stream save that succeeds followed by a file save that fails is not modelled.
- Writing and unlinking the temporary file are assumed to succeed. An exception from `unlink` is swallowed by the source anyway. A `BaseException` that is not an `Exception` is not modelled.
- An absent model content (`None`) is folded into the empty string; both are falsy and give "AI analysis failed".
- The service file uses names it never imports or defines: `openai` (lines 11 and 17), `base64` (line 60), `app` (line 73), `request` (line 77), `jsonify` (line 78), `extract_image_bytes` (line 92), `Image` (line 94), `os` and `output_dir` (line 101), `tempfile` (line 104), `RGBColor`, `PP_ALIGN`, `MSO_SHAPE`, `MSO_CONNECTOR`, `MSO_LINE` and `MSO_FILL` (lines 134-139), and `send_file` (line 156). As written, the module fails to import: `openai.api_key` at line 11 raises a NameError, and so would the `@app.route` decorator at line 73, so it serves no request. Were the module to import, `extract_image_bytes` (line 92) is undefined and raises outside the inner `try`, so every request that gets past the username check ends in the outer clause (lines 166-167) as 500 "Server error: name 'extract_image_bytes' is not defined"; requests refused earlier never reach it. Only if line 92 worked would the undefined `Image` (line 94), caught by a bare `except:`, give 400 "Invalid image data". The model follows the evident logic, not these failures.
- backend/com_pptx_service.py (PowerPoint COM automation), backend/app.py (route glue reusing the validator), backend/app/settings/config.py (constants) and the frontend are not part of this model.

=== FILE: base64.dfy ===
/**
 Base 64 as the image payload path uses it: the encoding of section 4 of
 RFC 4648, and the decoder that Python's `base64.b64decode(s)` runs with its
 default `validate=False` (CPython 3.11 and later). That decoder discards
 characters outside the alphabet, as section 3.3 of RFC 4648 permits, stops
 at the first complete padding sequence, and fails when the data characters
 leave a partial group.
 */
module Base64 {
  import opened Results

  type byte = x: int | 0 <= x < 256
  type sextet = x: int | 0 <= x < 64

  const Pad: char := '='

  /** The 64-character alphabet of Table 1 of RFC 4648. */
  predicate IsSymbol(c: char) {
    ('A' <= c <= 'Z') || ('a' <= c <= 'z') || ('0' <= c <= '9') || c == '+' || c == '/'
  }

  function Symbol(v: sextet): (c: char)
    ensures IsSymbol(c)
  {
    if v < 26 then ('A' as int + v) as char
    else if v < 52 then ('a' as int + (v - 26)) as char
    else if v < 62 then ('0' as int + (v - 52)) as char
    else if v == 62 then '+'
    else '/'
  }

  function Value(c: char): (v: sextet)
    requires IsSymbol(c)
    ensures Symbol(v) == c
  {
    if 'A' <= c <= 'Z' then c as int - 'A' as int
    else if 'a' <= c <= 'z' then c as int - 'a' as int + 26
    else if '0' <= c <= '9' then c as int - '0' as int + 52
    else if c == '+' then 62
    else 63
  }

  lemma ValueOfSymbol(v: sextet)
    ensures Value(Symbol(v)) == v
  {
  }

  // ---------------------------------------------------------------------
  // Encoding (section 4 of RFC 4648, with padding)
  // ---------------------------------------------------------------------

  /** Three bytes as four symbols. */
  function EncodeGroup(x: byte, y: byte, z: byte): string {
    [Symbol(x / 4), Symbol((x % 4) * 16 + y / 16), Symbol((y % 16) * 4 + z / 64), Symbol(z % 64)]
  }

  /** A final single byte: two symbols and two pad characters. */
  function EncodeOne(x: byte): string {
    [Symbol(x / 4), Symbol((x % 4) * 16), Pad, Pad]
  }

  /** A final pair of bytes: three symbols and one pad character. */
  function EncodeTwo(x: byte, y: byte): string {
    [Symbol(x / 4), Symbol((x % 4) * 16 + y / 16), Symbol((y % 16) * 4), Pad]
  }

  predicate IsEncodingChar(c: char) {
    IsSymbol(c) || c == Pad
  }

  function Encode(b: seq<byte>): (s: string)
    ensures |s| == 4 * ((|b| + 2) / 3)
    ensures forall i :: 0 <= i < |s| ==> IsEncodingChar(s[i])
  {
    if |b| == 0 then ""
    else if |b| == 1 then EncodeOne(b[0])
    else if |b| == 2 then EncodeTwo(b[0], b[1])
    else EncodeGroup(b[0], b[1], b[2]) + Encode(b[3..])
  }

  // ---------------------------------------------------------------------
  // Decoding (binascii.a2b_base64 in non-strict mode)
  // ---------------------------------------------------------------------

  /** Why `b64decode` raised. */
  datatype DecodeError =
    | NonAscii          // a `str` argument must be pure ASCII
    | DanglingSymbol    // one data character more than a multiple of four
    | IncorrectPadding  // two or three data characters in the last group, no padding

  /** The decoder's loop state: position within the current group of four,
      the bits carried from the previous character, the count of pad
      characters seen since the last data character, and the output so far. */
  datatype Scanner = Scanner(quad: nat, left: int, pads: nat, out: seq<byte>)

  /** The carried bits always fit in what the next character completes. */
  predicate Valid(st: Scanner) {
    && st.quad < 4
    && (st.quad == 0 ==> st.left == 0)
    && (st.quad == 1 ==> 0 <= st.left < 64)
    && (st.quad == 2 ==> 0 <= st.left < 16)
    && (st.quad == 3 ==> 0 <= st.left < 4)
  }

  /** Consume one data character worth `v`. */
  function Feed(st: Scanner, v: sextet): (st': Scanner)
    requires Valid(st)
    ensures Valid(st') && st'.pads == 0
    ensures st'.quad == (st.quad + 1) % 4
    ensures |st'.out| == |st.out| + (if st.quad == 0 then 0 else 1)
  {
    match st.quad
    case 0 => Scanner(1, v, 0, st.out)
    case 1 => Scanner(2, v % 16, 0, st.out + [st.left * 4 + v / 16])
    case 2 => Scanner(3, v % 4, 0, st.out + [st.left * 16 + v / 4])
    case _ => Scanner(0, 0, 0, st.out + [st.left * 64 + v])
  }

  /** The decoding loop over the remaining characters `s`. */
  function Scan(s: string, st: Scanner): (r: Result<seq<byte>, DecodeError>)
    requires Valid(st)
    ensures r.Success? ==> st.out <= r.value
    ensures r.Success? ==> 4 * |r.value| <= 4 * |st.out| + 3 * |s| + (if st.quad == 0 then 0 else 4 - st.quad)
    ensures r.Failure? ==> r.error == DanglingSymbol || r.error == IncorrectPadding
    decreases |s|
  {
    if |s| == 0 then
      if st.quad == 0 then Success(st.out)
      else if st.quad == 1 then Failure(DanglingSymbol)
      else Failure(IncorrectPadding)
    else if s[0] == Pad then
      if st.quad >= 2 && st.quad + st.pads + 1 >= 4 then Success(st.out)
      else Scan(s[1..], if st.quad >= 2 then st.(pads := st.pads + 1) else st)
    else if IsSymbol(s[0]) then
      var st' := Feed(st, Value(s[0]));
      Scan(s[1..], st')
    else Scan(s[1..], st)
  }

  const Start := Scanner(0, 0, 0, [])

  predicate IsAscii(s: string) {
    forall i :: 0 <= i < |s| ==> s[i] as int < 128
  }

  /** Python's `base64.b64decode(s)` for a `str` argument. */
  function Decode(s: string): (r: Result<seq<byte>, DecodeError>)
    ensures r == Failure(NonAscii) <==> !IsAscii(s)
    ensures r.Success? ==> 4 * |r.value| <= 3 * |s|
  {
    if !IsAscii(s) then Failure(NonAscii) else Scan(s, Start)
  }

  // ---------------------------------------------------------------------
  // Properties
  // ---------------------------------------------------------------------

  /** A character outside the alphabet (and not `=`) is discarded wherever
      it appears: section 3.3 of RFC 4648. */
  lemma {:induction false} ScanSkipsNoise(s: string, i: nat, c: char, st: Scanner)
    requires Valid(st) && i <= |s|
    requires !IsSymbol(c) && c != Pad
    ensures Scan(s[..i] + [c] + s[i..], st) == Scan(s, st)
    decreases i
  {
    var t := s[..i] + [c] + s[i..];
    if i == 0 {
      assert t[1..] == s;
    } else {
      assert t[0] == s[0];
      assert t[1..] == s[1..][..i - 1] + [c] + s[1..][i - 1..];
      if s[0] == Pad {
        if !(st.quad >= 2 && st.quad + st.pads + 1 >= 4) {
          ScanSkipsNoise(s[1..], i - 1, c, if st.quad >= 2 then st.(pads := st.pads + 1) else st);
        }
      } else if IsSymbol(s[0]) {
        ScanSkipsNoise(s[1..], i - 1, c, Feed(st, Value(s[0])));
      } else {
        ScanSkipsNoise(s[1..], i - 1, c, st);
      }
    }
  }

  /** Inserting an ASCII character outside the alphabet leaves the decoded
      result of `b64decode` unchanged. */
  lemma DecodeSkipsNoise(s: string, i: nat, c: char)
    requires i <= |s|
    requires !IsSymbol(c) && c != Pad && c as int < 128
    ensures Decode(s[..i] + [c] + s[i..]) == Decode(s)
  {
    var t := s[..i] + [c] + s[i..];
    assert IsAscii(t) <==> IsAscii(s) by {
      if IsAscii(s) {
        forall k | 0 <= k < |t| ensures t[k] as int < 128 {
          if k < i { assert t[k] == s[k]; }
          else if k > i { assert t[k] == s[k - 1]; }
        }
      }
      if IsAscii(t) {
        forall k | 0 <= k < |s| ensures s[k] as int < 128 {
          if k < i { assert t[k] == s[k]; }
          else { assert t[k + 1] == s[k]; }
        }
      }
    }
    ScanSkipsNoise(s, i, c, Start);
  }

  lemma ScanSymbol(c: char, rest: string, st: Scanner)
    requires Valid(st) && IsSymbol(c)
    ensures Scan([c] + rest, st) == Scan(rest, Feed(st, Value(c)))
  {
    assert ([c] + rest)[1..] == rest;
  }

  /** The bit arithmetic of one group: the three bytes reassembled from
      the four sextets `EncodeGroup` chose. */
  lemma GroupBits(x: byte, y: byte, z: byte)
    ensures (x / 4) * 4 + ((x % 4) * 16 + y / 16) / 16 == x
    ensures ((x % 4) * 16 + y / 16) % 16 == y / 16
    ensures (y / 16) * 16 + ((y % 16) * 4 + z / 64) / 4 == y
    ensures ((y % 16) * 4 + z / 64) % 4 == z / 64
    ensures (z / 64) * 64 + z % 64 == z
  {
  }

  /** Feeding the four sextets of a group restores the empty carry and
      appends the group's three bytes. */
  lemma FeedGroup(x: byte, y: byte, z: byte, out: seq<byte>)
    ensures var st1 := Feed(Scanner(0, 0, 0, out), x / 4);
            var st2 := Feed(st1, (x % 4) * 16 + y / 16);
            var st3 := Feed(st2, (y % 16) * 4 + z / 64);
            Feed(st3, z % 64) == Scanner(0, 0, 0, out + [x, y, z])
  {
    GroupBits(x, y, z);
  }

  /** One complete group of four symbols decodes to its three bytes. */
  lemma ScanGroup(x: byte, y: byte, z: byte, rest: string, out: seq<byte>)
    ensures Scan(EncodeGroup(x, y, z) + rest, Scanner(0, 0, 0, out))
         == Scan(rest, Scanner(0, 0, 0, out + [x, y, z]))
  {
    var a, b, c, d := x / 4, (x % 4) * 16 + y / 16, (y % 16) * 4 + z / 64, z % 64;
    var st0 := Scanner(0, 0, 0, out);
    var st1 := Feed(st0, a);
    var st2 := Feed(st1, b);
    var st3 := Feed(st2, c);
    FeedGroup(x, y, z, out);
    ValueOfSymbol(a); ValueOfSymbol(b); ValueOfSymbol(c); ValueOfSymbol(d);
    var s3 := [Symbol(d)] + rest;
    var s2 := [Symbol(c)] + s3;
    var s1 := [Symbol(b)] + s2;
    assert EncodeGroup(x, y, z) + rest == [Symbol(a)] + s1;
    ScanSymbol(Symbol(a), s1, st0);
    ScanSymbol(Symbol(b), s2, st1);
    ScanSymbol(Symbol(c), s3, st2);
    ScanSymbol(Symbol(d), rest, st3);
  }

  /** After two data characters of a final group, "==" completes it: the
      first pad is counted, the second ends decoding. */
  lemma ScanTwoPads(st: Scanner)
    requires Valid(st) && st.quad == 2 && st.pads == 0
    ensures Scan([Pad, Pad], st) == Success(st.out)
  {
    assert [Pad, Pad][1..] == [Pad];
    assert Scan([Pad, Pad], st) == Scan([Pad], st.(pads := 1));
  }

  /** After three data characters of a final group, one pad ends
      decoding. */
  lemma ScanOnePad(st: Scanner)
    requires Valid(st) && st.quad == 3
    ensures Scan([Pad], st) == Success(st.out)
  {
  }

  /** A final single byte decodes from its two symbols and "==". */
  lemma ScanEncodeOne(x: byte, out: seq<byte>)
    ensures Scan(EncodeOne(x), Scanner(0, 0, 0, out)) == Success(out + [x])
  {
    var a, b := x / 4, (x % 4) * 16;
    var st0 := Scanner(0, 0, 0, out);
    var st1 := Feed(st0, a);
    var st2 := Feed(st1, b);
    assert st2 == Scanner(2, 0, 0, out + [x]) by {
      assert st1 == Scanner(1, a, 0, out);
      assert a * 4 + b / 16 == x;
    }
    ValueOfSymbol(a); ValueOfSymbol(b);
    assert EncodeOne(x) == [Symbol(a)] + ([Symbol(b)] + [Pad, Pad]);
    ScanSymbol(Symbol(a), [Symbol(b)] + [Pad, Pad], st0);
    ScanSymbol(Symbol(b), [Pad, Pad], st1);
    ScanTwoPads(st2);
  }

  /** A final pair of bytes decodes from its three symbols and "=". */
  lemma ScanEncodeTwo(x: byte, y: byte, out: seq<byte>)
    ensures Scan(EncodeTwo(x, y), Scanner(0, 0, 0, out)) == Success(out + [x, y])
  {
    var a, b, c := x / 4, (x % 4) * 16 + y / 16, (y % 16) * 4;
    var st0 := Scanner(0, 0, 0, out);
    var st1 := Feed(st0, a);
    var st2 := Feed(st1, b);
    var st3 := Feed(st2, c);
    assert st3 == Scanner(3, 0, 0, out + [x, y]) by {
      GroupBits(x, y, 0);
      assert st1 == Scanner(1, a, 0, out);
      assert st2 == Scanner(2, y / 16, 0, out + [x]);
    }
    ValueOfSymbol(a); ValueOfSymbol(b); ValueOfSymbol(c);
    assert EncodeTwo(x, y) == [Symbol(a)] + ([Symbol(b)] + ([Symbol(c)] + [Pad]));
    ScanSymbol(Symbol(a), [Symbol(b)] + ([Symbol(c)] + [Pad]), st0);
    ScanSymbol(Symbol(b), [Symbol(c)] + [Pad], st1);
    ScanSymbol(Symbol(c), [Pad], st2);
    ScanOnePad(st3);
  }

  lemma {:induction false} ScanEncode(b: seq<byte>, out: seq<byte>)
    ensures Scan(Encode(b), Scanner(0, 0, 0, out)) == Success(out + b)
    decreases |b|
  {
    if |b| == 0 {
      assert out + b == out;
    } else if |b| == 1 {
      assert b == [b[0]];
      ScanEncodeOne(b[0], out);
    } else if |b| == 2 {
      assert b == [b[0], b[1]];
      ScanEncodeTwo(b[0], b[1], out);
    } else {
      var out' := out + [b[0], b[1], b[2]];
      assert Encode(b) == EncodeGroup(b[0], b[1], b[2]) + Encode(b[3..]);
      ScanGroup(b[0], b[1], b[2], Encode(b[3..]), out);
      ScanEncode(b[3..], out');
      AppendGroup(out, b);
    }
  }

  lemma AppendGroup(out: seq<byte>, b: seq<byte>)
    requires |b| >= 3
    ensures out + [b[0], b[1], b[2]] + b[3..] == out + b
  {
    assert b == [b[0], b[1], b[2]] + b[3..];
  }

  /** Decoding inverts encoding: `b64decode(b64encode(b)) == b`. */
  lemma {:induction false} DecodeEncode(b: seq<byte>)
    ensures Decode(Encode(b)) == Success(b)
  {
    var s := Encode(b);
    assert IsAscii(s) by {
      forall i | 0 <= i < |s| ensures s[i] as int < 128 {
        assert IsEncodingChar(s[i]);
      }
    }
    ScanEncode(b, []);
    assert [] + b == b;
  }

  /** The encoder's output contains neither ',' nor ':'. */
  lemma EncodeHasNoDelimiters(b: seq<byte>)
    ensures ',' !in Encode(b) && ':' !in Encode(b)
  {
    var s := Encode(b);
    forall i | 0 <= i < |s| ensures s[i] != ',' && s[i] != ':' {
      assert IsEncodingChar(s[i]);
    }
  }

  /** `b64decode` of "abc" raises `Incorrect padding`, and of "a" raises
      the one-character-too-many error; "abc=" decodes to two bytes. */
  lemma PaddingExamples()
    ensures Decode("abc") == Failure(IncorrectPadding)
    ensures Decode("a") == Failure(DanglingSymbol)
    ensures Decode("abc=").Success? && |Decode("abc=").value| == 2
  {
    assert IsAscii("abc") && IsAscii("a") && IsAscii("abc=");
    assert "abc"[1..] == "bc" && "bc"[1..] == "c" && "c"[1..] == "";
    assert "abc="[1..] == "bc=" && "bc="[1..] == "c=" && "c="[1..] == "=";
    assert "a"[1..] == "";
  }
}

=== FILE: fences.dfy ===
/**
 Fenced-code extraction from a model reply. The source uses
 `re.search(r'```python(.*?)```', text, re.DOTALL)` and
 `re.search(r'```vb\n(.*?)```', text, re.DOTALL)`: an opening tag, the
 shortest body, and a closing fence. Here that search is specified
 declaratively (leftmost opener, then the nearest closer) and implemented
 with two forward scans.
 */
module Fences {
  import opened Results
  import opened Text

  const Fence := "```"
  const PythonOpener := "```python"
  const VbOpener := "```vb\n"

  /** The regex matches with the opener at `i` and the closing fence at `j`
      (so the captured group is `s[i + |opener|..j]`). */
  predicate IsMatch(s: string, opener: string, i: int, j: int) {
    OccursAt(s, opener, i) && OccursAt(s, Fence, j) && i + |opener| <= j
  }

  /** `re.search` semantics with a lazy group: the match with the leftmost
      start, and for that start the shortest body. */
  ghost predicate IsFirstMatch(s: string, opener: string, i: int, j: int) {
    && IsMatch(s, opener, i, j)
    && forall i', j' :: IsMatch(s, opener, i', j') ==> i < i' || (i == i' && j <= j')
  }

  /** The span `(i, j)` of the match `re.search` returns, if any. */
  function Search(s: string, opener: string): (r: Option<(nat, nat)>)
    ensures r.Some? ==> IsFirstMatch(s, opener, r.value.0, r.value.1)
    ensures r.None? ==> forall i, j :: !IsMatch(s, opener, i, j)
  {
    match FindFrom(s, opener, 0)
    case None => None
    case Some(i) =>
      match FindFrom(s, Fence, i + |opener|)
      case None => None
      case Some(j) => Some((i, j))
  }

  /** The captured group of the first match. */
  function Group(s: string, opener: string): (body: Option<string>)
    ensures body.Some? ==> !Contains(body.value, Fence)
    ensures body.None? <==> forall i, j :: !IsMatch(s, opener, i, j)
    ensures forall i, j :: IsFirstMatch(s, opener, i, j) ==> body == Some(s[i + |opener|..j])
  {
    match Search(s, opener)
    case None => None
    case Some((i, j)) =>
      NoFenceBeforeCloser(s, opener, i, j);
      Some(s[i + |opener|..j])
  }

  /** Between the end of the opener and the first closing fence there is no
      fence. */
  lemma NoFenceBeforeCloser(s: string, opener: string, i: nat, j: nat)
    requires IsFirstMatch(s, opener, i, j)
    ensures !Contains(s[i + |opener|..j], Fence)
  {
    var body := s[i + |opener|..j];
    forall k | 0 <= k <= |body| - |Fence|
      ensures !OccursAt(body, Fence, k)
    {
      if OccursAt(body, Fence, k) {
        OccursInSlice(s, Fence, i + |opener|, j, k);
        assert IsMatch(s, opener, i, i + |opener| + k);
      }
    }
  }

  /** The code `convert` and `create_ppt_from_gpt_code` take from a reply:
      the stripped group of the first "```python ... ```" match. */
  function PythonCode(reply: string): (code: Option<string>)
    ensures code.Some? ==> !Contains(code.value, Fence) && Trimmed(code.value)
    ensures code.None? <==> forall i, j :: !IsMatch(reply, PythonOpener, i, j)
    ensures forall i, j :: IsFirstMatch(reply, PythonOpener, i, j) ==>
              code == Some(Strip(reply[i + |PythonOpener|..j]))
  {
    match Group(reply, PythonOpener)
    case None => None
    case Some(body) =>
      var ab := StripBounds(body);
      NotContainsSlice(body, Fence, ab.0, ab.1);
      Some(Strip(body))
  }

  /** `extract_vb_code`: the stripped group of the first "```vb\n ... ```"
      match, or else the whole stripped reply. It never fails. */
  function VbCode(raw: string): (code: string)
    ensures Trimmed(code)
    ensures Group(raw, VbOpener).Some? ==> code == Strip(Group(raw, VbOpener).value)
    ensures Group(raw, VbOpener).None? ==> code == Strip(raw)
    ensures Group(raw, VbOpener).Some? ==> !Contains(code, Fence)
  {
    match Group(raw, VbOpener)
    case Some(body) =>
      var ab := StripBounds(body);
      NotContainsSlice(body, Fence, ab.0, ab.1);
      Strip(body)
    case None => Strip(raw)
  }

  // ---------------------------------------------------------------------
  // Properties
  // ---------------------------------------------------------------------

  /** A string without a fence has no match for either opener, because both
      openers begin with a fence. */
  lemma NoFenceNoMatch(s: string, opener: string)
    requires StartsWith(opener, Fence)
    requires !Contains(s, Fence)
    ensures Search(s, opener).None?
  {
    forall i | 0 <= i <= |s| - |opener|
      ensures !OccursAt(s, opener, i)
    {
      if OccursAt(s, opener, i) {
        assert s[i..i + |Fence|] == opener[..|Fence|];
        assert OccursAt(s, Fence, i);
      }
    }
  }

  /** If `s` has no match, neither does any slice of it. */
  lemma NoMatchInSlice(s: string, opener: string, a: nat, b: nat)
    requires a <= b <= |s|
    requires forall i, j :: !IsMatch(s, opener, i, j)
    ensures forall i, j :: !IsMatch(s[a..b], opener, i, j)
  {
    forall i, j
      ensures !IsMatch(s[a..b], opener, i, j)
    {
      if IsMatch(s[a..b], opener, i, j) {
        MatchInSlice(s, opener, a, b, i, j);
      }
    }
  }

  lemma MatchInSlice(s: string, opener: string, a: nat, b: nat, i: int, j: int)
    requires a <= b <= |s|
    requires IsMatch(s[a..b], opener, i, j)
    ensures IsMatch(s, opener, a + i, a + j)
  {
    OccursInSlice(s, opener, a, b, i);
    OccursInSlice(s, Fence, a, b, j);
  }

  /** `extract_vb_code` is idempotent. */
  lemma VbCodeIdempotent(raw: string)
    ensures VbCode(VbCode(raw)) == VbCode(raw)
  {
    if Group(raw, VbOpener).Some? {
      VbMatchedIdempotent(raw);
    } else {
      VbFallbackIdempotent(raw);
    }
  }

  /** A matched group, stripped, holds no fence and so no second match. */
  lemma VbMatchedIdempotent(raw: string)
    requires Group(raw, VbOpener).Some?
    ensures VbCode(VbCode(raw)) == VbCode(raw)
  {
    var code := VbCode(raw);
    assert StartsWith(VbOpener, Fence);
    NoFenceNoMatch(code, VbOpener);
    assert Group(code, VbOpener).None?;
    StripTrimmed(code);
  }

  /** A reply without a match keeps none once stripped. */
  lemma VbFallbackIdempotent(raw: string)
    requires Group(raw, VbOpener).None?
    ensures VbCode(VbCode(raw)) == VbCode(raw)
  {
    var code := VbCode(raw);
    var ab := StripBounds(raw);
    assert code == raw[ab.0..ab.1];
    NoMatchInSlice(raw, VbOpener, ab.0, ab.1);
    assert Group(code, VbOpener).None?;
    StripTrimmed(code);
  }

  /** A fence tagged "VB" is not the opener "```vb\n": the whole stripped
      reply comes back, fences included. */
  lemma VbFallbackExample()
    ensures VbCode("```VB\nx```") == "```VB\nx```"
  {
    var s := "```VB\nx```";
    assert VbOpener[3] == 'v' && 'v' !in s;
    MissingCharBlocks(s, VbOpener, 3);
    assert Search(s, VbOpener).None?;
    StripTrimmed(s);
  }

  /** Text glued to the tag stays in the code: "```python3" yields a body
      starting with "3". */
  lemma TagSuffixKept()
    ensures PythonCode("```python3\nx=1```") == Some("3\nx=1")
  {
    var body := "3\nx=1";
    var s := "```python3\nx=1```";
    assert s == PythonOpener + body + Fence;
    assert OccursAt(s, PythonOpener, 0);
    assert OccursAt(s, Fence, 14);
    forall k | 9 <= k < 14 ensures !OccursAt(s, Fence, k) {
      assert s[k] == body[k - 9];
      assert '`' !in body;
      if OccursAt(s, Fence, k) {
        OccursAtChar(s, Fence, k, 0);
      }
    }
    assert IsMatch(s, PythonOpener, 0, 14);
    assert Search(s, PythonOpener) == Some((0, 14));
    assert s[9..14] == "3\nx=1";
    StripTrimmed("3\nx=1");
  }
}

=== FILE: image_payload.dfy ===
/**
 Acceptance and decoding of the `image` field of a conversion request:
 `validate_image_data` and `extract_image_bytes`. A payload is either a
 string starting with "data:image" (a simplified reading of the `data:` URL
 of section 3 of RFC 2397, in which the text after the first comma is taken
 as base 64 and the `;base64` token is never looked at) or bare base 64.
 */
module ImagePayload {
  import opened Results
  import opened Text
  import Base64

  /** A decoded JSON value, as `request.get_json()` hands it to the handler. */
  datatype Json =
    | Null
    | Bool(b: bool)
    | Num(n: real)
    | Str(s: string)
    | Arr(items: seq<Json>)
    | Obj(fields: map<string, Json>)

  /** Python truthiness: `None`, `False`, zero and empty containers are false. */
  predicate Truthy(v: Json)
    ensures !Truthy(v) <==> v in {Null, Bool(false), Num(0.0), Str(""), Arr([]), Obj(map[])}
  {
    match v
    case Null => false
    case Bool(b) => b
    case Num(n) => n != 0.0
    case Str(s) => s != ""
    case Arr(items) => |items| > 0
    case Obj(fields) => |fields| > 0
  }

  const DataImage := "data:image"

  /** `validate_image_data`: a non-empty string that either starts with
      "data:image" (nothing after the prefix is inspected) or decodes as
      base 64. */
  function ValidateImageData(v: Json): (ok: bool)
    ensures !Truthy(v) ==> !ok
    ensures !v.Str? ==> !ok
    ensures v.Str? && StartsWith(v.s, DataImage) ==> ok
    ensures v.Str? && !StartsWith(v.s, DataImage) ==>
              (ok <==> v.s != "" && Base64.Decode(v.s).Success?)
  {
    if !Truthy(v) then false
    else if v.Str? then
      if StartsWith(v.s, DataImage) then true
      else Base64.Decode(v.s).Success?
    else false
  }

  /** Why `extract_image_bytes` raised. */
  datatype ExtractError =
    | NoPayloadField                      // `split(',')[1]` raised IndexError
    | BadBase64(cause: Base64.DecodeError)

  /** `base64.b64decode` with its exception wrapped as an extraction error. */
  function DecodeField(p: string): (r: Result<seq<Base64.byte>, ExtractError>)
    ensures r.Success? <==> Base64.Decode(p).Success?
    ensures r.Success? ==> r.value == Base64.Decode(p).value
  {
    match Base64.Decode(p)
    case Success(bytes) => Success(bytes)
    case Failure(e) => Failure(BadBase64(e))
  }

  /** `extract_image_bytes`: for a "data:image" string, decode the second
      comma-separated field; otherwise decode the whole string. */
  function ExtractImageBytes(s: string): (r: Result<seq<Base64.byte>, ExtractError>)
    ensures !StartsWith(s, DataImage) ==> r == DecodeField(s)
    ensures StartsWith(s, DataImage) && ',' !in s ==> r == Failure(NoPayloadField)
    ensures StartsWith(s, DataImage) && ',' in s ==>
              |Split(s, ',')| >= 2 && r == DecodeField(Split(s, ',')[1])
  {
    SplitSeparated(s, ',');
    if StartsWith(s, DataImage) then
      var fields := Split(s, ',');
      if |fields| < 2 then Failure(NoPayloadField) else DecodeField(fields[1])
    else DecodeField(s)
  }

  // ---------------------------------------------------------------------
  // How acceptance and extraction relate
  // ---------------------------------------------------------------------

  /** For a bare string both functions decode the very same text, so an
      accepted bare payload always extracts. */
  lemma AcceptedBareExtracts(s: string)
    requires ValidateImageData(Str(s)) && !StartsWith(s, DataImage)
    ensures ExtractImageBytes(s).Success?
    ensures ExtractImageBytes(s).value == Base64.Decode(s).value
  {
  }

  /** Any "data:image" string is accepted, yet extraction can fail: with no
      comma there is no second field to decode. */
  lemma AcceptedWithoutComma()
    ensures ValidateImageData(Str("data:image"))
    ensures ExtractImageBytes("data:image") == Failure(NoPayloadField)
  {
    assert StartsWith("data:image", DataImage);
    SplitNoSeparator("data:image", ',');
  }

  /** ... and the second field need not be valid base 64 either. */
  lemma AcceptedWithBadPayload()
    ensures ValidateImageData(Str("data:image/png;base64,a"))
    ensures ExtractImageBytes("data:image/png;base64,a") == Failure(BadBase64(Base64.DanglingSymbol))
  {
    var h := "data:image/png;base64";
    assert h + [','] + "a" == "data:image/png;base64,a";
    assert StartsWith(h, DataImage);
    assert ',' !in h && ',' !in "a";
    ExtractTakesSecondField(h, "a", "");
    Base64.PaddingExamples();
    assert DecodeField("a") == Failure(BadBase64(Base64.DanglingSymbol));
  }

  /** A "data:image" string without a comma has no payload field. */
  lemma NoCommaFails(s: string)
    requires StartsWith(s, DataImage) && ',' !in s
    ensures ExtractImageBytes(s) == Failure(NoPayloadField)
  {
    SplitNoSeparator(s, ',');
  }

  /** For "data:image" strings only the text between the first and the
      second comma is decoded; anything after a second comma is ignored. */
  lemma {:induction false} ExtractTakesSecondField(header: string, payload: string, tail: string)
    requires StartsWith(header, DataImage)
    requires ',' !in header && ',' !in payload
    ensures ExtractImageBytes(header + [','] + payload) == DecodeField(payload)
    ensures ExtractImageBytes(header + [','] + payload + [','] + tail) == DecodeField(payload)
  {
    var s1 := header + [','] + payload;
    var s2 := header + [','] + (payload + [','] + tail);
    assert s2 == header + [','] + payload + [','] + tail;
    assert s1[..|DataImage|] == header[..|DataImage|];
    assert s2[..|DataImage|] == header[..|DataImage|];
    SplitHead(header, ',', payload);
    SplitNoSeparator(payload, ',');
    SplitHead(header, ',', payload + [','] + tail);
    SplitHead(payload, ',', tail);
    assert Split(s1, ',')[1] == payload;
    assert Split(s2, ',')[1] == payload;
  }

  /** The encoder never produces a "data:image" prefix: ':' is not in the
      base 64 alphabet. */
  lemma EncodedIsBare(b: seq<Base64.byte>)
    ensures !StartsWith(Base64.Encode(b), DataImage)
  {
    var e := Base64.Encode(b);
    Base64.EncodeHasNoDelimiters(b);
    if |e| >= |DataImage| {
      assert e[4] != ':';
      assert e[..|DataImage|][4] == e[4];
    }
  }

  /** Round trip through a bare base 64 payload. */
  lemma RoundTripBare(b: seq<Base64.byte>)
    ensures ExtractImageBytes(Base64.Encode(b)) == Success(b)
    ensures ValidateImageData(Str(Base64.Encode(b))) <==> |b| > 0
  {
    EncodedIsBare(b);
    Base64.DecodeEncode(b);
  }

  /** Round trip through a data URI with a PNG media type. */
  lemma RoundTripDataUri(b: seq<Base64.byte>)
    ensures ValidateImageData(Str("data:image/png;base64," + Base64.Encode(b)))
    ensures ExtractImageBytes("data:image/png;base64," + Base64.Encode(b)) == Success(b)
  {
    var h := "data:image/png;base64";
    var e := Base64.Encode(b);
    assert "data:image/png;base64," + e == h + [','] + e;
    assert StartsWith(h, DataImage);
    assert ',' !in h;
    assert (h + [','] + e)[..|DataImage|] == h[..|DataImage|];
    Base64.EncodeHasNoDelimiters(b);
    Base64.DecodeEncode(b);
    ExtractTakesSecondField(h, e, "");
  }
}

=== FILE: naming.dfy ===
/**
 Naming of the persisted deck in the service variant of `/convert`: the
 username is reduced to `[A-Za-z0-9_-]` with `re.sub(r'[^a-zA-Z0-9_-]', '_',
 username)` and the file is called `<safe_username>_<timestamp>.pptx`.
 */
module Naming {

  /** The characters the substitution keeps. */
  predicate IsAllowed(c: char) {
    ('a' <= c <= 'z') || ('A' <= c <= 'Z') || ('0' <= c <= '9') || c == '_' || c == '-'
  }

  predicate AllAllowed(s: string) {
    forall i :: 0 <= i < |s| ==> IsAllowed(s[i])
  }

  /** Every character outside the class becomes '_'; the rest are kept. */
  function Sanitize(username: string): (safe: string)
    ensures |safe| == |username|
    ensures AllAllowed(safe)
    ensures forall i :: 0 <= i < |username| && IsAllowed(username[i]) ==> safe[i] == username[i]
    ensures forall i :: 0 <= i < |username| && !IsAllowed(username[i]) ==> safe[i] == '_'
  {
    if |username| == 0 then ""
    else
      var c := username[0];
      [if IsAllowed(c) then c else '_'] + Sanitize(username[1..])
  }

  /** A string already inside the class is its own sanitisation. */
  lemma {:induction false} SanitizeFixesAllowed(s: string)
    requires AllAllowed(s)
    ensures Sanitize(s) == s
  {
    if |s| > 0 {
      assert forall i :: 0 <= i < |s| - 1 ==> s[1..][i] == s[i + 1];
      SanitizeFixesAllowed(s[1..]);
    }
  }

  /** Sanitising twice is sanitising once. */
  lemma {:induction false} SanitizeIdempotent(username: string)
    ensures Sanitize(Sanitize(username)) == Sanitize(username)
  {
    SanitizeFixesAllowed(Sanitize(username));
  }

  /** The shape `datetime.now().strftime("%Y%m%d_%H%M%S")` produces:
      digits and underscores only. */
  predicate IsTimestamp(t: string) {
    forall i :: 0 <= i < |t| ==> ('0' <= t[i] <= '9') || t[i] == '_'
  }

  const Extension := ".pptx"

  /** `f"{safe_username}_{timestamp}.pptx"`. */
  function Filename(username: string, timestamp: string): (f: string)
    ensures |f| == |username| + 1 + |timestamp| + |Extension|
    ensures f[..|username|] == Sanitize(username) && f[|username|] == '_'
    ensures f[|username| + 1..|f| - |Extension|] == timestamp
    ensures f[|f| - |Extension|..] == Extension
  {
    Sanitize(username) + "_" + timestamp + Extension
  }

  /** The filename is a single path component: no separator of either
      kind, exactly one '.', which begins the ".pptx" extension, and the
      sanitised name at its head. */
  lemma FilenameIsPlain(username: string, timestamp: string)
    requires IsTimestamp(timestamp)
    ensures var f := Filename(username, timestamp);
            && (forall i :: 0 <= i < |f| ==> f[i] != '/' && f[i] != '\\')
            && (forall i :: 0 <= i < |f| ==> (f[i] == '.' <==> i == |f| - |Extension|))
            && f[..|username|] == Sanitize(username)
            && f[|f| - |Extension|..] == Extension
  {
    var safe := Sanitize(username);
    var f := Filename(username, timestamp);
    assert f == safe + "_" + timestamp + Extension;
    forall i | 0 <= i < |f|
      ensures f[i] != '/' && f[i] != '\\'
      ensures f[i] == '.' <==> i == |f| - |Extension|
    {
      if i < |safe| {
        assert f[i] == safe[i];
        assert IsAllowed(safe[i]);
      } else if i == |safe| {
        assert f[i] == '_';
      } else if i < |safe| + 1 + |timestamp| {
        assert f[i] == timestamp[i - |safe| - 1];
      } else {
        assert f[i] == Extension[i - |safe| - 1 - |timestamp|];
      }
    }
  }
}

=== FILE: ocr.dfy ===
/**
 The OCR path: binarisation of the grey image, reduction of the
 recogniser's tokens to positioned text elements, and the deck built from
 them (`preprocess_image`, `analyze_with_ocr`, `run_ocr_and_build_pptx`).
 Grey conversion, auto-contrast and recognition are library calls and are
 parameters here.
 */
module Ocr {
  import opened Text
  import Slides

  type pixel = x: int | 0 <= x < 256

  /** A single-channel image, row by row. */
  type Gray = seq<seq<pixel>>

  const Threshold: pixel := 150

  /** `lambda x: 0 if x < 150 else 255`. */
  function Binarize(x: pixel): (y: pixel)
    ensures y == 0 || y == 255
    ensures y == 0 <==> x < Threshold
  {
    if x < Threshold then 0 else 255
  }

  lemma BinarizeMonotone(x: pixel, y: pixel)
    requires x <= y
    ensures Binarize(x) <= Binarize(y)
  {
  }

  /** Black and white are fixed points, so binarising twice changes
      nothing. */
  lemma BinarizeIdempotent(x: pixel)
    ensures Binarize(0) == 0 && Binarize(255) == 255
    ensures Binarize(Binarize(x)) == Binarize(x)
  {
  }

  predicate IsBinary(g: Gray) {
    forall r, c :: 0 <= r < |g| && 0 <= c < |g[r]| ==> g[r][c] == 0 || g[r][c] == 255
  }

  /** `Image.point` with the threshold map: the same shape, every pixel
      mapped. */
  function BinarizeImage(g: Gray): (b: Gray)
    ensures |b| == |g|
    ensures forall r :: 0 <= r < |g| ==> |b[r]| == |g[r]|
    ensures forall r, c :: 0 <= r < |g| && 0 <= c < |g[r]| ==> b[r][c] == Binarize(g[r][c])
    ensures IsBinary(b)
  {
    seq(|g|, r requires 0 <= r < |g| => seq(|g[r]|, c requires 0 <= c < |g[r]| => Binarize(g[r][c])))
  }

  /** `preprocess_image`: grey conversion and auto-contrast (library
      calls), then the threshold. */
  function PreprocessImage<Image>(img: Image, toGray: Image -> Gray, autocontrast: Gray -> Gray): (b: Gray)
    ensures IsBinary(b)
  {
    BinarizeImage(autocontrast(toGray(img)))
  }

  // ---------------------------------------------------------------------
  // Tokens to elements
  // ---------------------------------------------------------------------

  /** One row of `pytesseract.image_to_data`: the recognised text, its
      confidence and its bounding box in pixels. */
  datatype Token = Token(text: string, conf: real, left: int, top: int, width: int, height: int)

  /** Pixels per inch. */
  const Scale: real := 100.0
  /** Points per pixel of glyph height. */
  const FontScale: real := 1.3
  const MinConfidence: int := 50

  /** Python's `int(x)` on a float: truncation toward zero. */
  function Truncate(x: real): (n: int)
    ensures x >= 0.0 ==> n as real <= x < n as real + 1.0
    ensures x < 0.0 ==> n as real - 1.0 < x <= n as real
  {
    if x >= 0.0 then x.Floor else -((-x).Floor)
  }

  /** A token is kept when its truncated confidence reaches 50 and its
      text is not all whitespace. */
  predicate Keep(t: Token) {
    Truncate(t.conf) >= MinConfidence && !AllSpace(t.text)
  }

  /** `Keep` is the test `int(conf) >= 50 and word.strip()`, and truncation
      does not move the cut: a token passes exactly when its confidence is
      at least 50 and its stripped text is non-empty. */
  lemma KeepAsWritten(t: Token)
    ensures Keep(t) <==> Truncate(t.conf) >= MinConfidence && Strip(t.text) != ""
    ensures Keep(t) <==> t.conf >= 50.0 && Strip(t.text) != ""
  {
    StripEmpty(t.text);
  }

  /** The element for a kept token: the text as recognised (not stripped),
      the box divided by `Scale`, and the pixel height times `FontScale`. */
  function ToElement(t: Token): (e: Slides.Element)
    ensures e.text == t.text
    ensures e.left * Scale == t.left as real && e.top * Scale == t.top as real
    ensures e.width * Scale == t.width as real && e.height * Scale == t.height as real
    ensures e.fontSize == t.height as real * FontScale
  {
    Slides.Element(t.text, t.left as real / Scale, t.top as real / Scale,
                   t.width as real / Scale, t.height as real / Scale, t.height as real * FontScale)
  }

  /** Positions of the kept tokens, in recognition order. */
  function KeptIndices(tokens: seq<Token>): (idx: seq<nat>)
    ensures |idx| <= |tokens|
    ensures forall k :: 0 <= k < |idx| ==> idx[k] < |tokens|
    ensures forall k, l :: 0 <= k < l < |idx| ==> idx[k] < idx[l]
  {
    if |tokens| == 0 then []
    else
      var n := |tokens| - 1;
      KeptIndices(tokens[..n]) + (if Keep(tokens[n]) then [n] else [])
  }

  /** Every listed position holds a kept token. */
  lemma {:induction false} KeptIndicesAreKept(tokens: seq<Token>)
    ensures forall k :: 0 <= k < |KeptIndices(tokens)| ==> Keep(tokens[KeptIndices(tokens)[k]])
    decreases |tokens|
  {
    if |tokens| > 0 {
      var n := |tokens| - 1;
      var pre := tokens[..n];
      KeptIndicesAreKept(pre);
      var prefix := KeptIndices(pre);
      var idx := KeptIndices(tokens);
      assert idx == prefix + (if Keep(tokens[n]) then [n] else []);
      forall k | 0 <= k < |idx|
        ensures Keep(tokens[idx[k]])
      {
        if k < |prefix| {
          assert Keep(pre[prefix[k]]);
          assert idx[k] == prefix[k] && tokens[prefix[k]] == pre[prefix[k]];
        } else {
          assert Keep(tokens[n]) && idx[k] == n;
        }
      }
    }
  }

  /** Every kept token's position is listed. */
  lemma {:induction false} KeptIndicesComplete(tokens: seq<Token>)
    ensures forall i :: 0 <= i < |tokens| && Keep(tokens[i]) ==> i in KeptIndices(tokens)
    decreases |tokens|
  {
    if |tokens| > 0 {
      var n := |tokens| - 1;
      var pre := tokens[..n];
      KeptIndicesComplete(pre);
      var prefix := KeptIndices(pre);
      var idx := KeptIndices(tokens);
      assert idx == prefix + (if Keep(tokens[n]) then [n] else []);
      forall i | 0 <= i < |tokens| && Keep(tokens[i])
        ensures i in idx
      {
        if i < n {
          assert pre[i] == tokens[i];
          assert i in prefix;
        }
      }
    }
  }

  /** The element list `analyze_with_ocr` returns for a token list:
      exactly the kept tokens, in order, each converted. */
  function Elements(tokens: seq<Token>): (els: seq<Slides.Element>)
    ensures |els| == |KeptIndices(tokens)|
    ensures forall k :: 0 <= k < |els| ==> els[k] == ToElement(tokens[KeptIndices(tokens)[k]])
  {
    if |tokens| == 0 then []
    else
      var n := |tokens| - 1;
      var prefix := KeptIndices(tokens[..n]);
      var rest := Elements(tokens[..n]);
      assert KeptIndices(tokens) == prefix + (if Keep(tokens[n]) then [n] else []);
      assert forall k :: 0 <= k < |prefix| ==> rest[k] == ToElement(tokens[prefix[k]]) by {
        forall k | 0 <= k < |prefix| ensures rest[k] == ToElement(tokens[prefix[k]]) {
          assert tokens[..n][prefix[k]] == tokens[prefix[k]];
        }
      }
      rest + (if Keep(tokens[n]) then [ToElement(tokens[n])] else [])
  }

  /** The loop of `analyze_with_ocr`, appending one element per kept token. */
  method CollectElements(tokens: seq<Token>) returns (elements: seq<Slides.Element>)
    ensures elements == Elements(tokens)
    ensures |elements| <= |tokens|
  {
    elements := [];
    var i := 0;
    while i < |tokens|
      invariant 0 <= i <= |tokens|
      invariant elements == Elements(tokens[..i])
    {
      assert tokens[..i + 1][..i] == tokens[..i];
      if Keep(tokens[i]) {
        elements := elements + [ToElement(tokens[i])];
      }
      i := i + 1;
    }
    assert tokens[..|tokens|] == tokens;
  }

  /** `analyze_with_ocr`: preprocess, recognise, reduce. */
  function AnalyzeWithOcr<Image>(img: Image, toGray: Image -> Gray, autocontrast: Gray -> Gray,
                                 recognize: Gray -> seq<Token>): (els: seq<Slides.Element>)
    ensures var tokens := recognize(PreprocessImage(img, toGray, autocontrast));
            && |els| == |KeptIndices(tokens)|
            && forall k :: 0 <= k < |els| ==> els[k] == ToElement(tokens[KeptIndices(tokens)[k]])
  {
    Elements(recognize(PreprocessImage(img, toGray, autocontrast)))
  }

  /** `run_ocr_and_build_pptx`: one text box per kept token, carrying that
      token's element. */
  function RunOcrAndBuildPptx<Image>(img: Image, toGray: Image -> Gray, autocontrast: Gray -> Gray,
                                     recognize: Gray -> seq<Token>): (d: Slides.Deck)
    ensures var tokens := recognize(PreprocessImage(img, toGray, autocontrast));
            && |d.slides| == 1
            && |d.slides[0].shapes| == |KeptIndices(tokens)|
            && forall k :: 0 <= k < |d.slides[0].shapes| ==>
                 Slides.ElementOf(d.slides[0].shapes[k]) == ToElement(tokens[KeptIndices(tokens)[k]])
  {
    Slides.FromElements(AnalyzeWithOcr(img, toGray, autocontrast, recognize))
  }

  /** Of a confident word and a doubtful one, only the confident word
      survives. */
  lemma ConfidenceExample()
    ensures Elements([Token("Hi", 80.0, 0, 0, 10, 10), Token("Ho", 30.0, 0, 0, 10, 10)])
         == [ToElement(Token("Hi", 80.0, 0, 0, 10, 10))]
  {
    var hi := Token("Hi", 80.0, 0, 0, 10, 10);
    var ho := Token("Ho", 30.0, 0, 0, 10, 10);
    assert !IsSpace("Hi"[0]);
    assert Keep(hi) && !Keep(ho);
    assert [hi, ho][..1] == [hi];
    assert [hi][..0] == [];
  }
}

=== FILE: results.dfy ===
/** Failure-carrying values shared by every module of the model. */
module Results {

  /** A value that may be absent: Python's `None` or a failed `re.search`. */
  datatype Option<+T> = None | Some(value: T)

  /** Either a value or the exception that replaced it. */
  datatype Result<+T, +E> = Success(value: T) | Failure(error: E)
}

=== FILE: routes.dfy ===
/**
 The two `/convert` handlers: the standalone converter and the backend
 service variant. A handler is a pure function from the request and the
 outside world (image check, language model, `exec`, clock) to the HTTP
 response and the ordered list of side effects it performed. The effects
 record the temporary image file, the model call, the code handed to
 `exec`, the persistent save and the removal of the temporary file.
 */
module Routes {
  import opened Results
  import opened Text
  import Base64
  import opened ImagePayload
  import opened ScriptGate
  import Slides
  import Naming
  import Fences

  /** The request as Flask sees it: whether the content type is JSON, and
      what `get_json()` returned or the text of the exception it raised. */
  datatype Request = Request(isJson: bool, body: Result<Json, string>)

  /** What the language model call produced: an exception, or the message
      content (an absent content reads as ""). */
  datatype AiReply = AiRaised(message: string) | AiText(content: string)

  /** The outside world: `Image.open(...).verify()` succeeding, the
      language model, and `exec` followed by the `create_slide()` call. */
  datatype Services = Services(
    verifyImage: seq<Base64.byte> -> bool,
    analyze: seq<Base64.byte> -> AiReply,
    exec: string -> Run)

  datatype Effect =
    | WroteTemp            // the decoded image went to a temporary file
    | AskedAi              // the language model was called
    | Executed(code: string)
    | SavedFile(name: string)
    | RemovedTemp          // the `finally` clause removed the temporary file

  datatype Response = Error(status: int, message: string) | Attachment(name: string, deck: Slides.Deck)

  datatype Outcome = Outcome(response: Response, effects: seq<Effect>)

  const ImageKey := "image"
  const UsernameKey := "username"
  const DownloadName := "output.pptx"

  const NotJson := "Request must be JSON"
  const NoImage := "No image provided"
  const NoUsername := "Username is required"
  const InvalidFormat := "Invalid image format"
  const InvalidData := "Invalid image data"
  const AiFailed := "AI analysis failed"
  const NoCode := "No valid Python code generated"
  /** The refusal for generated code that calls `add_freeform`. */
  const UsesFreeformMessage := "Generated code uses " + "unsupported method: " + "add_freeform()"
  const MissingEntry := "Missing create_slide function"
  const InvalidPresentation := "Invalid presentation object"
  const ExecutionPrefix := "Execution error: "
  const ServerPrefix := "Server error: "

  /** The outer `except Exception` clause. */
  function ServerError(detail: string): (r: Response)
    ensures r.Error? && r.status == 500 && StartsWith(r.message, ServerPrefix)
  {
    assert (ServerPrefix + detail)[..|ServerPrefix|] == ServerPrefix;
    Error(500, ServerPrefix + detail)
  }

  /** The inner `except Exception` clause around `exec` and the save. */
  function ExecutionError(detail: string): (r: Response)
    ensures r.Error? && r.status == 400 && !StartsWith(r.message, ServerPrefix)
  {
    NotServerMessage(ExecutionPrefix + detail);
    Error(400, ExecutionPrefix + detail)
  }

  /** A message whose first letter is not 'S' cannot carry the server
      prefix. */
  lemma NotServerMessage(m: string)
    requires |m| > 0 && m[0] != 'S'
    ensures !StartsWith(m, ServerPrefix)
  {
    if |m| >= |ServerPrefix| {
      assert m[..|ServerPrefix|][0] == m[0];
    }
  }

  /** Error statuses come in two classes: 400 for the handler's own
      refusals and 500, always with the "Server error: " prefix, for an
      exception that reached the outer clause. */
  predicate Classified(r: Response) {
    r.Error? ==> (r.status == 400 || r.status == 500) && (r.status == 500 <==> StartsWith(r.message, ServerPrefix))
  }

  /** A refusal with status 400 and a message that does not look like a
      server error. */
  predicate Refusal(r: Response) {
    r.Error? ==> r.status == 400 && !StartsWith(r.message, ServerPrefix)
  }

  // ---------------------------------------------------------------------
  // Python operations on the decoded JSON
  // ---------------------------------------------------------------------

  /** `type(v).__name__`. A JSON number with no fractional part is read
      as `int`. */
  function TypeName(v: Json): (r: string)
    ensures v.Str? <==> r == "str"
    ensures v.Obj? <==> r == "dict"
    ensures v.Arr? <==> r == "list"
    ensures v.Null? <==> r == "NoneType"
  {
    match v
    case Null => "NoneType"
    case Bool(_) => "bool"
    case Num(n) => if n.Floor as real == n then "int" else "float"
    case Str(_) => "str"
    case Arr(_) => "list"
    case Obj(_) => "dict"
  }

  /** `key in v`: a dict tests its keys, a list its elements, a string its
      substrings; anything else raises TypeError. */
  function HasKey(v: Json, key: string): (r: Result<bool, string>)
    ensures r.Success? <==> v.Obj? || v.Arr? || v.Str?
    ensures v.Obj? ==> r == Success(key in v.fields)
    ensures v.Arr? ==> r == Success(Str(key) in v.items)
    ensures v.Str? ==> r == Success(Contains(v.s, key))
  {
    match v
    case Obj(fields) => Success(key in fields)
    case Arr(items) => Success(Str(key) in items)
    case Str(s) => Success(Contains(s, key))
    case _ => Failure("argument of type '" + TypeName(v) + "' is not iterable")
  }

  /** `v[key]` with a string key: only a dict holding the key yields a
      value; a missing key raises KeyError, other types TypeError. */
  function Subscript(v: Json, key: string): (r: Result<Json, string>)
    ensures r.Success? <==> v.Obj? && key in v.fields
    ensures r.Success? ==> r.value == v.fields[key]
  {
    match v
    case Obj(fields) => if key in fields then Success(fields[key]) else Failure("'" + key + "'")
    case Arr(_) => Failure("list indices must be integers or slices, not str")
    case Str(_) => Failure("string indices must be integers, not 'str'")
    case _ => Failure("'" + TypeName(v) + "' object is not subscriptable")
  }

  /** A lookup guarded by a successful membership test succeeds exactly
      for a dict. */
  lemma LookupAfterMembership(v: Json, key: string)
    requires HasKey(v, key) == Success(true)
    ensures Subscript(v, key).Success? <==> v.Obj?
  {
  }

  const IndexMessage := "list index out of range"
  const PaddingMessage := "Incorrect padding"
  const AsciiMessage := "string argument should contain only ASCII characters"
  const DanglingMessage :=
    "Invalid base64-encoded string: number of data characters cannot be 1 more than a multiple of 4"

  /** The text of the exception `extract_image_bytes` raises on a string. */
  function ExtractMessage(e: ExtractError): (r: string)
    ensures e == NoPayloadField <==> r == IndexMessage
    ensures e == BadBase64(Base64.IncorrectPadding) <==> r == PaddingMessage
    ensures e == BadBase64(Base64.NonAscii) <==> r == AsciiMessage
  {
    assert |IndexMessage| == 23 && |PaddingMessage| == 17 && |AsciiMessage| == 52 && |DanglingMessage| > 60;
    match e
    case NoPayloadField => IndexMessage
    case BadBase64(cause) =>
      if cause.NonAscii? then AsciiMessage
      else if cause.IncorrectPadding? then PaddingMessage
      else DanglingMessage
  }

  /** `extract_image_bytes` on any JSON value: a non-string has no
      `startswith`. */
  function Extract(v: Json): (r: Result<seq<Base64.byte>, string>)
    ensures r.Success? <==> v.Str? && ExtractImageBytes(v.s).Success?
    ensures r.Success? ==> r.value == ExtractImageBytes(v.s).value
  {
    match v
    case Str(s) =>
      (match ExtractImageBytes(s)
       case Success(bytes) => Success(bytes)
       case Failure(e) => Failure(ExtractMessage(e)))
    case _ => Failure("'" + TypeName(v) + "' object has no attribute 'startswith'")
  }

  // ---------------------------------------------------------------------
  // Shared stages
  // ---------------------------------------------------------------------

  /** The checks both handlers start with: JSON content type, a body that
      parses, is truthy and holds "image". */
  function Admit(req: Request): (r: Result<Json, Response>)
    ensures !req.isJson ==> r == Failure(Error(400, NotJson))
    ensures r.Success? <==>
              && req.isJson && req.body.Success? && Truthy(req.body.value)
              && HasKey(req.body.value, ImageKey) == Success(true)
    ensures r.Success? ==> r.value == req.body.value
    ensures req.isJson && req.body.Success? && !Truthy(req.body.value) ==> r == Failure(Error(400, NoImage))
    ensures req.isJson && req.body.Success? && Truthy(req.body.value) && HasKey(req.body.value, ImageKey) == Success(false) ==>
              r == Failure(Error(400, NoImage))
    ensures req.isJson && req.body.Failure? ==> r == Failure(ServerError(req.body.error))
    ensures req.isJson && req.body.Success? && Truthy(req.body.value) && HasKey(req.body.value, ImageKey).Failure? ==>
              r == Failure(ServerError(HasKey(req.body.value, ImageKey).error))
    ensures r.Failure? ==> Classified(r.error)
  {
    NotServerMessage(NotJson);
    NotServerMessage(NoImage);
    if !req.isJson then Failure(Error(400, NotJson))
    else
      match req.body
      case Failure(m) => Failure(ServerError(m))
      case Success(data) =>
        if !Truthy(data) then Failure(Error(400, NoImage))
        else
          match HasKey(data, ImageKey)
          case Failure(m) => Failure(ServerError(m))
          case Success(present) => if present then Success(data) else Failure(Error(400, NoImage))
  }

  /** The response for a presentation object: `saveAs` is None for the
      standalone handler (which checks for a `save` attribute and names the
      download "output.pptx") and the target filename for the service
      variant (which calls `save` unchecked and also writes the file). */
  function Deliver(p: Product, saveAs: Option<string>): (o: Outcome)
    ensures o.response.Attachment? <==> p.Saveable? && p.saved.Success?
    ensures o.response.Attachment? ==> o.response.deck == p.saved.value
    ensures o.response.Attachment? ==> o.response.name == if saveAs.Some? then saveAs.value else DownloadName
    ensures o.effects == if saveAs.Some? && o.response.Attachment? then [SavedFile(saveAs.value)] else []
    ensures Refusal(o.response)
  {
    NotServerMessage(InvalidPresentation);
    match p
    case Unsaveable(t) =>
      if saveAs.None? then Outcome(Error(400, InvalidPresentation), [])
      else Outcome(ExecutionError("'" + t + "' object has no attribute 'save'"), [])
    case Saveable(Failure(m)) => Outcome(ExecutionError(m), [])
    case Saveable(Success(deck)) =>
      match saveAs
      case None => Outcome(Attachment(DownloadName, deck), [])
      case Some(name) => Outcome(Attachment(name, deck), [SavedFile(name)])
  }

  /** `exec` and the `create_slide()` call inside the inner `try`. */
  function RunCode(run: Run, saveAs: Option<string>): (o: Outcome)
    ensures o.response.Attachment? <==> run.Finished? && run.entry.Some? && run.entry.value.Returned?
                                        && Deliver(run.entry.value.product, saveAs).response.Attachment?
    ensures run == Finished(None) ==> o == Outcome(Error(400, MissingEntry), [])
    ensures run.Raised? ==> o == Outcome(Error(400, ExecutionPrefix + run.message), [])
    ensures run.Finished? && run.entry.Some? && run.entry.value.CallRaised? ==>
              o == Outcome(Error(400, ExecutionPrefix + run.entry.value.message), [])
    ensures run.Finished? && run.entry.Some? && run.entry.value.Returned? ==>
              o == Deliver(run.entry.value.product, saveAs)
    ensures Refusal(o.response)
  {
    NotServerMessage(MissingEntry);
    match run
    case Raised(m) => Outcome(ExecutionError(m), [])
    case Finished(None) => Outcome(Error(400, MissingEntry), [])
    case Finished(Some(CallRaised(m))) => Outcome(ExecutionError(m), [])
    case Finished(Some(Returned(p))) => Deliver(p, saveAs)
  }

  /** A code-generation failure as the handlers report it. */
  function RejectionResponse(r: Rejection): (resp: Response)
    ensures resp.Error? && resp.status == 400
    ensures resp.message == NoCode <==> r == NoPythonCode
    ensures resp.message == UsesFreeformMessage <==> r == UsesFreeform
  {
    match r
    case NoPythonCode => Error(400, NoCode)
    case UsesFreeform => Error(400, UsesFreeformMessage)
  }

  /** What follows the gate on a non-empty model reply: report the
      rejection, or run the code and deliver the presentation. The effects
      are those after the model call. */
  function Respond(gated: Result<string, Rejection>, exec: string -> Run, saveAs: Option<string>): (o: Outcome)
    ensures |o.effects| <= 2
    ensures o.effects != [] <==> gated.Success?
    ensures o.effects != [] ==> o.effects[0] == Executed(gated.value)
    ensures forall i :: 0 <= i < |o.effects| ==> o.effects[i] != WroteTemp && o.effects[i] != RemovedTemp
    ensures |o.effects| == 2 ==> saveAs.Some? && o.effects[1] == SavedFile(saveAs.value)
    ensures o.response.Attachment? ==>
              && o.effects != []
              && exec(o.effects[0].code) == Finished(Some(Returned(Saveable(Success(o.response.deck)))))
              && o.response.name == if saveAs.Some? then saveAs.value else DownloadName
    ensures saveAs.Some? && o.response.Attachment? ==> |o.effects| == 2
    ensures gated.Failure? ==> o == Outcome(RejectionResponse(gated.error), [])
    ensures gated.Success? ==> o.response == RunCode(exec(gated.value), saveAs).response
    ensures Refusal(o.response)
  {
    NotServerMessage(NoCode);
    NotServerMessage(UsesFreeformMessage);
    match gated
    case Failure(why) => Outcome(RejectionResponse(why), [])
    case Success(code) =>
      var delivered := RunCode(exec(code), saveAs);
      Outcome(delivered.response, [Executed(code)] + delivered.effects)
  }

  /** What follows the model call: an exception, an empty reply, or a
      reply whose code is gated, run and delivered. The effects are those
      after the model call. */
  function Consult(reply: AiReply, exec: string -> Run, saveAs: Option<string>): (o: Outcome)
    ensures |o.effects| <= 2
    ensures o.effects != [] ==>
              && reply.AiText?
              && o.effects[0].Executed?
              && PrepareCode(reply.content) == Success(o.effects[0].code)
    ensures forall i :: 0 <= i < |o.effects| ==> o.effects[i] != WroteTemp && o.effects[i] != RemovedTemp
    ensures |o.effects| == 2 ==> saveAs.Some? && o.effects[1] == SavedFile(saveAs.value)
    ensures o.response.Attachment? ==>
              && o.effects != []
              && exec(o.effects[0].code) == Finished(Some(Returned(Saveable(Success(o.response.deck)))))
              && o.response.name == if saveAs.Some? then saveAs.value else DownloadName
    ensures saveAs.Some? && o.response.Attachment? ==> |o.effects| == 2
    ensures Classified(o.response)
    ensures o.response.Error? && o.response.status != 400 ==>
              reply.AiRaised? && o.response.message == ServerPrefix + reply.message
  {
    NotServerMessage(AiFailed);
    match reply
    case AiRaised(m) => Outcome(ServerError(m), [])
    case AiText(content) =>
      if content == "" then Outcome(Error(400, AiFailed), [])
      else Respond(PrepareCode(content), exec, saveAs)
  }

  /** Everything from the image check on, before the `finally` clause:
      verify the image, write it to a temporary file, ask the model, gate
      the code, run it and deliver the presentation. */
  function Generate(bytes: seq<Base64.byte>, s: Services, saveAs: Option<string>): (o: Outcome)
    ensures o.effects == [] <==> !s.verifyImage(bytes)
    ensures !s.verifyImage(bytes) ==> o.response == Error(400, InvalidData)
    ensures Classified(o.response)
    ensures o.response.Error? && o.response.status != 400 ==>
              && s.analyze(bytes).AiRaised?
              && o.response.message == ServerPrefix + s.analyze(bytes).message
  {
    NotServerMessage(InvalidData);
    if !s.verifyImage(bytes) then Outcome(Error(400, InvalidData), [])
    else AfterAsking(Consult(s.analyze(bytes), s.exec, saveAs))
  }

  /** The effects of `Generate`: the temporary file and the model call
      first, then at most the gated code's execution and the save. */
  lemma GenerateEffects(bytes: seq<Base64.byte>, s: Services, saveAs: Option<string>)
    ensures var o := Generate(bytes, s, saveAs);
            o.effects != [] ==> 2 <= |o.effects| <= 4 && o.effects[0] == WroteTemp && o.effects[1] == AskedAi
    ensures var o := Generate(bytes, s, saveAs);
            forall i :: 2 <= i < |o.effects| ==> o.effects[i] != WroteTemp && o.effects[i] != RemovedTemp
    ensures var o := Generate(bytes, s, saveAs);
            |o.effects| >= 3 ==>
              && s.analyze(bytes).AiText?
              && o.effects[2].Executed?
              && PrepareCode(s.analyze(bytes).content) == Success(o.effects[2].code)
    ensures var o := Generate(bytes, s, saveAs);
            |o.effects| == 4 ==> saveAs.Some? && o.effects[3] == SavedFile(saveAs.value)
  {
    if s.verifyImage(bytes) {
      var c := Consult(s.analyze(bytes), s.exec, saveAs);
      var o := AfterAsking(c);
      assert Generate(bytes, s, saveAs) == o;
      if |o.effects| >= 3 {
        assert o.effects[2] == c.effects[0];
      }
      if |o.effects| == 4 {
        assert o.effects[3] == c.effects[1];
      }
    }
  }

  /** `Generate` delivers a presentation only after the gated code ran and
      `create_slide()` returned an object whose `save` wrote that deck. */
  lemma GenerateAttachment(bytes: seq<Base64.byte>, s: Services, saveAs: Option<string>)
    ensures var o := Generate(bytes, s, saveAs);
            o.response.Attachment? ==>
              && |o.effects| >= 3
              && s.exec(o.effects[2].code) == Finished(Some(Returned(Saveable(Success(o.response.deck)))))
              && o.response.name == if saveAs.Some? then saveAs.value else DownloadName
    ensures var o := Generate(bytes, s, saveAs);
            saveAs.Some? && o.response.Attachment? ==> |o.effects| == 4
  {
    if s.verifyImage(bytes) {
      var c := Consult(s.analyze(bytes), s.exec, saveAs);
      AskingAttachment(c, s.exec, saveAs);
      assert Generate(bytes, s, saveAs) == AfterAsking(c);
    }
  }

  /** Prefixing the temporary file and the model call moves the executed
      code of an attachment from the first effect to the third. */
  lemma AskingAttachment(c: Outcome, exec: string -> Run, saveAs: Option<string>)
    requires c.response.Attachment? ==>
               && c.effects != [] && c.effects[0].Executed?
               && exec(c.effects[0].code) == Finished(Some(Returned(Saveable(Success(c.response.deck)))))
               && c.response.name == if saveAs.Some? then saveAs.value else DownloadName
    requires saveAs.Some? && c.response.Attachment? ==> |c.effects| == 2
    ensures var o := AfterAsking(c);
            o.response.Attachment? ==>
              && |o.effects| >= 3 && o.effects[2].Executed?
              && exec(o.effects[2].code) == Finished(Some(Returned(Saveable(Success(o.response.deck)))))
              && o.response.name == if saveAs.Some? then saveAs.value else DownloadName
    ensures var o := AfterAsking(c);
            saveAs.Some? && o.response.Attachment? ==> |o.effects| == 4
  {
    if c.response.Attachment? {
      assert AfterAsking(c).effects[2] == c.effects[0];
    }
  }

  /** Prefix an outcome with the temporary file and the model call. */
  function AfterAsking(rest: Outcome): (o: Outcome)
    ensures o.response == rest.response
    ensures |o.effects| == |rest.effects| + 2
    ensures o.effects[0] == WroteTemp && o.effects[1] == AskedAi
    ensures forall i :: 2 <= i < |o.effects| ==> o.effects[i] == rest.effects[i - 2]
  {
    Outcome(rest.response, [WroteTemp, AskedAi] + rest.effects)
  }

  /** The `finally` clause: the temporary file is removed when one was
      written. */
  function Cleanup(o: Outcome): (c: Outcome)
    ensures c.response == o.response
    ensures o.effects <= c.effects && |c.effects| <= |o.effects| + 1
    ensures WroteTemp in c.effects ==> c.effects[|c.effects| - 1] == RemovedTemp
    ensures WroteTemp !in o.effects ==> c == o
  {
    if WroteTemp in o.effects then Outcome(o.response, o.effects + [RemovedTemp]) else o
  }

  // ---------------------------------------------------------------------
  // The handlers
  // ---------------------------------------------------------------------

  /** The standalone converter's `/convert`. */
  function Convert(req: Request, s: Services): (o: Outcome)
    ensures Admit(req).Failure? ==> o == Outcome(Admit(req).error, [])
    ensures RequestImage(req).Some? && !ValidateImageData(RequestImage(req).value) ==>
              o == Outcome(Error(400, InvalidFormat), [])
    ensures o.effects != [] ==>
              && RequestImage(req).Some? && ValidateImageData(RequestImage(req).value)
              && Extract(RequestImage(req).value).Success?
  {
    match Admit(req)
    case Failure(r) => Outcome(r, [])
    case Success(data) =>
      match Subscript(data, ImageKey)
      case Failure(m) => Outcome(ServerError(m), [])
      case Success(image) =>
        if !ValidateImageData(image) then Outcome(Error(400, InvalidFormat), [])
        else
          match Extract(image)
          case Failure(m) => Outcome(ServerError(m), [])
          case Success(bytes) => Cleanup(Generate(bytes, s, None))
  }

  /** The service variant's `/convert`: requires a username, skips the
      format check, names the output after the sanitised username and the
      clock's `timestamp`, and keeps a copy on disk. */
  function ConvertService(req: Request, s: Services, timestamp: string): (o: Outcome)
    ensures Admit(req).Failure? ==> o == Outcome(Admit(req).error, [])
    ensures Admit(req).Success? && HasKey(Admit(req).value, UsernameKey) == Success(false) ==>
              o == Outcome(Error(400, NoUsername), [])
    ensures o.effects != [] ==>
              && RequestImage(req).Some? && UsernameKey in req.body.value.fields
              && req.body.value.fields[UsernameKey].Str?
              && Extract(RequestImage(req).value).Success?
  {
    match Admit(req)
    case Failure(r) => Outcome(r, [])
    case Success(data) =>
      match HasKey(data, UsernameKey)
      case Failure(m) => Outcome(ServerError(m), [])
      case Success(present) =>
        if !present then Outcome(Error(400, NoUsername), [])
        else
          match Subscript(data, UsernameKey)
          case Failure(m) => Outcome(ServerError(m), [])
          case Success(username) =>
            if !username.Str? then
              Outcome(ServerError("expected string or bytes-like object, got '" + TypeName(username) + "'"), [])
            else
              match Subscript(data, ImageKey)
              case Failure(m) => Outcome(ServerError(m), [])
              case Success(image) =>
                match Extract(image)
                case Failure(m) => Outcome(ServerError(m), [])
                case Success(bytes) => Cleanup(Generate(bytes, s, Some(Naming.Filename(username.s, timestamp))))
  }

  // ---------------------------------------------------------------------
  // Properties of the handlers
  // ---------------------------------------------------------------------

  /** The image value both handlers decode, when they get that far. */
  function RequestImage(req: Request): (r: Option<Json>)
    ensures r.Some? ==> req.body.Success? && req.body.value.Obj? && ImageKey in req.body.value.fields
    ensures r.Some? ==> r.value == req.body.value.fields[ImageKey]
  {
    match Admit(req)
    case Failure(_) => None
    case Success(data) =>
      match Subscript(data, ImageKey)
      case Failure(_) => None
      case Success(image) => Some(image)
  }

  /** The effect lists a handler can leave: nothing, or the temporary file
      written first and removed last, with the model call, at most one
      execution and at most one save in between. */
  predicate TempLifecycle(effects: seq<Effect>) {
    || effects == []
    || (&& 3 <= |effects| <= 5
        && effects[0] == WroteTemp && effects[1] == AskedAi
        && effects[|effects| - 1] == RemovedTemp
        && (forall i :: 1 <= i < |effects| ==> effects[i] != WroteTemp)
        && (forall i :: 0 <= i < |effects| - 1 ==> effects[i] != RemovedTemp))
  }

  lemma CleanupLifecycle(o: Outcome)
    requires o.effects == [] || (2 <= |o.effects| <= 4 && o.effects[0] == WroteTemp && o.effects[1] == AskedAi)
    requires forall i :: 2 <= i < |o.effects| ==> o.effects[i] != WroteTemp && o.effects[i] != RemovedTemp
    ensures TempLifecycle(Cleanup(o).effects)
    ensures Cleanup(o).response == o.response
    ensures WroteTemp in Cleanup(o).effects <==> RemovedTemp in Cleanup(o).effects
  {
    if o.effects != [] {
      assert o.effects[0] == WroteTemp;
      var e := Cleanup(o).effects;
      assert e == o.effects + [RemovedTemp];
      assert e[|e| - 1] == RemovedTemp;
    }
  }

  /** Temporary-file discipline of the standalone handler: a temporary
      file is written only after the image check passes, and whenever one
      is written it is removed, last. */
  lemma {:induction false} ConvertRemovesTemp(req: Request, s: Services)
    ensures TempLifecycle(Convert(req, s).effects)
    ensures WroteTemp in Convert(req, s).effects <==> RemovedTemp in Convert(req, s).effects
    ensures Convert(req, s).effects != [] ==>
              && RequestImage(req).Some?
              && Extract(RequestImage(req).value).Success?
              && s.verifyImage(Extract(RequestImage(req).value).value)
  {
    match Admit(req)
    case Failure(_) =>
    case Success(data) =>
      match Subscript(data, ImageKey)
      case Failure(_) =>
      case Success(image) =>
        match Extract(image)
        case Failure(_) =>
        case Success(bytes) =>
          GenerateEffects(bytes, s, None);
          CleanupLifecycle(Generate(bytes, s, None));
  }

  /** The same discipline for the service handler. */
  lemma {:induction false} ServiceRemovesTemp(req: Request, s: Services, timestamp: string)
    ensures TempLifecycle(ConvertService(req, s, timestamp).effects)
    ensures var o := ConvertService(req, s, timestamp); WroteTemp in o.effects <==> RemovedTemp in o.effects
    ensures ConvertService(req, s, timestamp).effects != [] ==>
              && RequestImage(req).Some?
              && Extract(RequestImage(req).value).Success?
              && s.verifyImage(Extract(RequestImage(req).value).value)
  {
    match Admit(req)
    case Failure(_) =>
    case Success(data) =>
      if HasKey(data, UsernameKey) == Success(true) && Subscript(data, UsernameKey).Success?
         && Subscript(data, UsernameKey).value.Str?
      {
        var name := Naming.Filename(Subscript(data, UsernameKey).value.s, timestamp);
        match Subscript(data, ImageKey)
        case Failure(_) =>
        case Success(image) =>
          match Extract(image)
          case Failure(_) =>
          case Success(bytes) =>
            GenerateEffects(bytes, s, Some(name));
            CleanupLifecycle(Generate(bytes, s, Some(name)));
      }
  }


  /** The code a handler may hand to `exec` for this request: the gated
      code of the model's reply to the request's image bytes. */
  predicate Gated(req: Request, s: Services, code: string) {
    && RequestImage(req).Some?
    && Extract(RequestImage(req).value).Success?
    && var reply := s.analyze(Extract(RequestImage(req).value).value);
       reply.AiText? && PrepareCode(reply.content) == Success(code)
  }

  /** Cleanup only appends: the executed effect of a cleaned-up outcome is
      the third effect of the outcome before cleanup. */
  lemma CleanupKeepsExecution(g: Outcome)
    requires g.effects == [] || (2 <= |g.effects| <= 4 && g.effects[0] == WroteTemp && g.effects[1] == AskedAi)
    requires |g.effects| == 4 ==> g.effects[3].SavedFile?
    ensures var o := Cleanup(g);
            forall i :: 0 <= i < |o.effects| && o.effects[i].Executed? ==> i == 2 && o.effects[i] == g.effects[2]
  {
    if g.effects != [] {
      assert Cleanup(g).effects == g.effects + [RemovedTemp];
    }
  }

  /** After cleanup, the only executed code is the third effect, and it is
      the gated code of the model's reply to `bytes`. */
  lemma CleanupExecutes(bytes: seq<Base64.byte>, s: Services, saveAs: Option<string>)
    ensures var o := Cleanup(Generate(bytes, s, saveAs));
            forall i :: 0 <= i < |o.effects| && o.effects[i].Executed? ==>
              && i == 2
              && s.analyze(bytes).AiText?
              && PrepareCode(s.analyze(bytes).content) == Success(o.effects[i].code)
  {
    var g := Generate(bytes, s, saveAs);
    GenerateEffects(bytes, s, saveAs);
    CleanupKeepsExecution(g);
  }

  /** The standalone handler executes at most one piece of code, third in
      the effect list, and only gated code. */
  lemma {:induction false} ConvertExecutesGatedCode(req: Request, s: Services)
    ensures var o := Convert(req, s);
            forall i :: 0 <= i < |o.effects| && o.effects[i].Executed? ==>
              i == 2 && Gated(req, s, o.effects[i].code)
  {
    match Admit(req)
    case Failure(_) =>
    case Success(data) =>
      match Subscript(data, ImageKey)
      case Failure(_) =>
      case Success(image) =>
        match Extract(image)
        case Failure(_) =>
        case Success(bytes) =>
          CleanupExecutes(bytes, s, None);
  }

  /** The same for the service handler. */
  lemma {:induction false} ServiceExecutesGatedCode(req: Request, s: Services, timestamp: string)
    ensures var o := ConvertService(req, s, timestamp);
            forall i :: 0 <= i < |o.effects| && o.effects[i].Executed? ==>
              i == 2 && Gated(req, s, o.effects[i].code)
  {
    match Admit(req)
    case Failure(_) =>
    case Success(data) =>
      if HasKey(data, UsernameKey) == Success(true) && Subscript(data, UsernameKey).Success?
         && Subscript(data, UsernameKey).value.Str?
      {
        var name := Naming.Filename(Subscript(data, UsernameKey).value.s, timestamp);
        match Subscript(data, ImageKey)
        case Failure(_) =>
        case Success(image) =>
          match Extract(image)
          case Failure(_) =>
          case Success(bytes) =>
            CleanupExecutes(bytes, s, Some(name));
      }
  }

  /** Gated code never mentions `add_freeform` and always carries the
      shape imports. */
  lemma GatedCodeIsSafe(req: Request, s: Services, code: string)
    ensures Gated(req, s, code) ==> !Contains(code, Forbidden) && HasRequiredNames(code)
  {
  }

  /** Given the same request and the same model reply, both handlers hand
      the very same code to `exec`. */
  lemma SameCodeInBothHandlers(req: Request, s: Services, timestamp: string)
    ensures var e1 := Convert(req, s).effects;
            var e2 := ConvertService(req, s, timestamp).effects;
            forall i, j :: 0 <= i < |e1| && e1[i].Executed? && 0 <= j < |e2| && e2[j].Executed? ==> e1[i] == e2[j]
  {
    ConvertExecutesGatedCode(req, s);
    ServiceExecutesGatedCode(req, s, timestamp);
  }

  /** Every error the standalone handler returns is a 400 refusal or a
      500 whose message carries the "Server error: " prefix, and never the
      other way round. */
  lemma {:induction false} ConvertErrorsClassified(req: Request, s: Services)
    ensures Classified(Convert(req, s).response)
  {
    NotServerMessage(InvalidFormat);
    match Admit(req)
    case Failure(_) =>
    case Success(data) =>
      match Subscript(data, ImageKey)
      case Failure(_) =>
      case Success(image) =>
        match Extract(image)
        case Failure(_) =>
        case Success(bytes) =>
          assert Cleanup(Generate(bytes, s, None)).response == Generate(bytes, s, None).response;
  }

  /** The same classification for the service handler. */
  lemma {:induction false} ServiceErrorsClassified(req: Request, s: Services, timestamp: string)
    ensures Classified(ConvertService(req, s, timestamp).response)
  {
    NotServerMessage(NoUsername);
    match Admit(req)
    case Failure(_) =>
    case Success(data) =>
      if HasKey(data, UsernameKey) == Success(true) && Subscript(data, UsernameKey).Success?
         && Subscript(data, UsernameKey).value.Str?
      {
        var name := Naming.Filename(Subscript(data, UsernameKey).value.s, timestamp);
        match Subscript(data, ImageKey)
        case Failure(_) =>
        case Success(image) =>
          match Extract(image)
          case Failure(_) =>
          case Success(bytes) =>
            assert Cleanup(Generate(bytes, s, Some(name))).response == Generate(bytes, s, Some(name)).response;
      }
  }


  /** `Generate` followed by the `finally` clause: a presentation comes
      with the temporary file, the model call, the execution, the save when
      a name was given, and the removal, in that order. */
  lemma CleanupAttachment(bytes: seq<Base64.byte>, s: Services, saveAs: Option<string>)
    ensures var o := Cleanup(Generate(bytes, s, saveAs));
            o.response.Attachment? ==>
              && |o.effects| == (if saveAs.Some? then 5 else 4)
              && o.effects[2].Executed?
              && PrepareCode(s.analyze(bytes).content) == Success(o.effects[2].code)
              && s.exec(o.effects[2].code) == Finished(Some(Returned(Saveable(Success(o.response.deck)))))
              && o.response.name == (if saveAs.Some? then saveAs.value else DownloadName)
              && (saveAs.Some? ==> o.effects[3] == SavedFile(saveAs.value))
  {
    var g := Generate(bytes, s, saveAs);
    GenerateEffects(bytes, s, saveAs);
    GenerateAttachment(bytes, s, saveAs);
    if g.response.Attachment? {
      CleanedAttachment(g, saveAs, PrepareCode(s.analyze(bytes).content), s.exec);
    }
  }

  /** The `finally` clause keeps an attachment and the effects before the
      removal as they were. */
  lemma CleanedAttachment(g: Outcome, saveAs: Option<string>, prepared: Result<string, Rejection>,
                          exec: string -> Run)
    requires g.response.Attachment? ==>
               && |g.effects| == (if saveAs.Some? then 4 else 3)
               && g.effects[0] == WroteTemp
               && g.effects[2].Executed?
               && prepared == Success(g.effects[2].code)
               && exec(g.effects[2].code) == Finished(Some(Returned(Saveable(Success(g.response.deck)))))
               && g.response.name == (if saveAs.Some? then saveAs.value else DownloadName)
               && (saveAs.Some? ==> g.effects[3] == SavedFile(saveAs.value))
    ensures var o := Cleanup(g);
            o.response.Attachment? ==>
              && |o.effects| == (if saveAs.Some? then 5 else 4)
              && o.effects[2].Executed?
              && prepared == Success(o.effects[2].code)
              && exec(o.effects[2].code) == Finished(Some(Returned(Saveable(Success(o.response.deck)))))
              && o.response.name == (if saveAs.Some? then saveAs.value else DownloadName)
              && (saveAs.Some? ==> o.effects[3] == SavedFile(saveAs.value))
  {
    if g.response.Attachment? {
      var e := g.effects + [RemovedTemp];
      CleanupAppends(g);
      assert |e| == |g.effects| + 1 && e[2] == g.effects[2];
      if saveAs.Some? {
        assert e[3] == g.effects[3];
      }
    }
  }

  /** Without a name to save under, `Generate` and the `finally` clause
      write no file. */
  lemma CleanupSavesNothing(bytes: seq<Base64.byte>, s: Services)
    ensures forall e :: e in Cleanup(Generate(bytes, s, None)).effects ==> !e.SavedFile?
  {
    GenerateEffects(bytes, s, None);
    CleanupAddsNoSave(Generate(bytes, s, None));
  }

  /** The `finally` clause appends the removal to an outcome that wrote
      the temporary file first. */
  lemma CleanupAppends(g: Outcome)
    requires g.effects != [] && g.effects[0] == WroteTemp
    ensures Cleanup(g) == Outcome(g.response, g.effects + [RemovedTemp])
  {
    assert WroteTemp in g.effects;
  }

  lemma CleanupAddsNoSave(g: Outcome)
    requires g.effects == [] || (2 <= |g.effects| <= 3 && g.effects[0] == WroteTemp && g.effects[1] == AskedAi)
    requires |g.effects| == 3 ==> g.effects[2].Executed?
    ensures forall e :: e in Cleanup(g).effects ==> !e.SavedFile?
  {
    if g.effects != [] {
      CleanupAppends(g);
      var e := g.effects + [RemovedTemp];
      forall i | 0 <= i < |e|
        ensures !e[i].SavedFile?
      {
        if i < |g.effects| {
          assert e[i] == g.effects[i];
        }
      }
    }
  }

  /** The standalone handler returns a presentation only when the gated
      code ran, `create_slide()` returned an object whose `save` wrote that
      very deck, and it never writes a file of its own. */
  lemma {:induction false} ConvertAttachment(req: Request, s: Services)
    ensures var o := Convert(req, s);
            o.response.Attachment? ==>
              && |o.effects| == 4
              && o.effects[2].Executed?
              && Gated(req, s, o.effects[2].code)
              && s.exec(o.effects[2].code) == Finished(Some(Returned(Saveable(Success(o.response.deck)))))
              && o.response.name == DownloadName
    ensures forall e :: e in Convert(req, s).effects ==> !e.SavedFile?
  {
    ConvertExecutesGatedCode(req, s);
    match Admit(req)
    case Failure(_) =>
    case Success(data) =>
      match Subscript(data, ImageKey)
      case Failure(_) =>
      case Success(image) =>
        match Extract(image)
        case Failure(_) =>
        case Success(bytes) =>
          CleanupAttachment(bytes, s, None);
          CleanupSavesNothing(bytes, s);
  }

  /** The service handler returns a presentation only when the gated code
      ran and its deck was saved, and then it has also written the file the
      download is named after: the sanitised username, the timestamp and
      ".pptx". */
  lemma {:induction false} ServiceAttachment(req: Request, s: Services, timestamp: string)
    ensures var o := ConvertService(req, s, timestamp);
            o.response.Attachment? ==>
              && |o.effects| == 5
              && o.effects[2].Executed?
              && Gated(req, s, o.effects[2].code)
              && s.exec(o.effects[2].code) == Finished(Some(Returned(Saveable(Success(o.response.deck)))))
              && o.effects[3] == SavedFile(o.response.name)
              && UsernameKey in req.body.value.fields
              && req.body.value.fields[UsernameKey].Str?
              && o.response.name == Naming.Filename(req.body.value.fields[UsernameKey].s, timestamp)
  {
    ServiceExecutesGatedCode(req, s, timestamp);
    match Admit(req)
    case Failure(_) =>
    case Success(data) =>
      if HasKey(data, UsernameKey) == Success(true) && Subscript(data, UsernameKey).Success?
         && Subscript(data, UsernameKey).value.Str?
      {
        var name := Naming.Filename(Subscript(data, UsernameKey).value.s, timestamp);
        match Subscript(data, ImageKey)
        case Failure(_) =>
        case Success(image) =>
          match Extract(image)
          case Failure(_) =>
          case Success(bytes) =>
            CleanupAttachment(bytes, s, Some(name));
      }
  }

  /** A request that passes every check before `exec` is answered with
      whatever running the gated code gives: an attachment, an execution
      error, or one of the delivery refusals. */
  lemma ConvertRunsGatedCode(fields: map<string, Json>, s: Services, content: string)
    requires ImageKey in fields && ValidateImageData(fields[ImageKey])
    requires Extract(fields[ImageKey]).Success?
    requires s.verifyImage(Extract(fields[ImageKey]).value)
    requires s.analyze(Extract(fields[ImageKey]).value) == AiText(content) && content != ""
    ensures PrepareCode(content).Success? ==>
              Convert(Request(true, Success(Obj(fields))), s).response
              == RunCode(s.exec(PrepareCode(content).value), None).response
  {
    var req := Request(true, Success(Obj(fields)));
    var bytes := Extract(fields[ImageKey]).value;
    assert Truthy(Obj(fields)) by {
      assert ImageKey in fields.Keys;
    }
    assert Convert(req, s) == Cleanup(Generate(bytes, s, None));
    RunsGatedCode(bytes, s, content, None);
  }

  /** The same for the service handler, which names the output after the
      username and keeps a copy. */
  lemma ServiceRunsGatedCode(fields: map<string, Json>, s: Services, timestamp: string,
                             content: string)
    requires ImageKey in fields && UsernameKey in fields && fields[UsernameKey].Str?
    requires Extract(fields[ImageKey]).Success?
    requires s.verifyImage(Extract(fields[ImageKey]).value)
    requires s.analyze(Extract(fields[ImageKey]).value) == AiText(content) && content != ""
    ensures PrepareCode(content).Success? ==>
              ConvertService(Request(true, Success(Obj(fields))), s, timestamp).response
              == RunCode(s.exec(PrepareCode(content).value),
                         Some(Naming.Filename(fields[UsernameKey].s, timestamp))).response
  {
    var req := Request(true, Success(Obj(fields)));
    var bytes := Extract(fields[ImageKey]).value;
    var name := Naming.Filename(fields[UsernameKey].s, timestamp);
    assert Truthy(Obj(fields)) by {
      assert ImageKey in fields.Keys;
    }
    assert ConvertService(req, s, timestamp) == Cleanup(Generate(bytes, s, Some(name)));
    RunsGatedCode(bytes, s, content, Some(name));
  }

  /** From the image check on, a verified image whose reply gates to `code`
      is answered by running `code`. */
  lemma RunsGatedCode(bytes: seq<Base64.byte>, s: Services, content: string,
                      saveAs: Option<string>)
    requires s.verifyImage(bytes)
    requires s.analyze(bytes) == AiText(content) && content != ""
    ensures PrepareCode(content).Success? ==>
              Cleanup(Generate(bytes, s, saveAs)).response
              == RunCode(s.exec(PrepareCode(content).value), saveAs).response
  {
    assert Generate(bytes, s, saveAs) == AfterAsking(Consult(s.analyze(bytes), s.exec, saveAs));
    assert Consult(s.analyze(bytes), s.exec, saveAs) == Respond(PrepareCode(content), s.exec, saveAs);
  }

  /** Both handlers run the same first checks and stop there with the same
      answer and no side effect. */
  lemma SharedAdmission(req: Request, s: Services, timestamp: string)
    requires Admit(req).Failure?
    ensures Convert(req, s) == Outcome(Admit(req).error, [])
    ensures ConvertService(req, s, timestamp) == Outcome(Admit(req).error, [])
    ensures !req.isJson ==> Convert(req, s).response == Error(400, NotJson)
  {
  }

  /** The service handler asks for the username before it looks at the
      image at all: whatever the image value, a missing username is a
      refusal with no side effect. */
  lemma UsernameBeforeImage(fields: map<string, Json>, s: Services, timestamp: string)
    requires ImageKey in fields && UsernameKey !in fields
    ensures ConvertService(Request(true, Success(Obj(fields))), s, timestamp) == Outcome(Error(400, NoUsername), [])
  {
    assert |fields| > 0 by {
      assert ImageKey in fields.Keys;
    }
  }

  /** The format check accepts any "data:image" string, so a data URI
      without a comma passes it and the standalone handler answers with a
      server error rather than a refusal. */
  lemma DataUriWithoutComma(s: Services)
    ensures Convert(Request(true, Success(Obj(map[ImageKey := Str("data:image")]))), s)
         == Outcome(ServerError("list index out of range"), [])
  {
    var data := Obj(map[ImageKey := Str("data:image")]);
    AcceptedWithoutComma();
    assert Truthy(data) by {
      assert ImageKey in data.fields.Keys;
    }
    assert Subscript(data, ImageKey) == Success(Str("data:image"));
  }

  /** `in` on a string body is a substring test, so a bare JSON string
      mentioning "image" passes the presence check and the lookup raises. */
  lemma StringBodyMentioningImage(s: Services)
    ensures Convert(Request(true, Success(Str("image"))), s)
         == Outcome(ServerError("string indices must be integers, not 'str'"), [])
  {
    assert OccursAt("image", ImageKey, 0);
  }

  /** An object without `save`: the standalone handler refuses it by name,
      the service variant reports the AttributeError its `save` call
      raises. */
  lemma ObjectWithoutSave(typeName: string, name: string)
    ensures Deliver(Unsaveable(typeName), None) == Outcome(Error(400, InvalidPresentation), [])
    ensures Deliver(Unsaveable(typeName), Some(name))
         == Outcome(ExecutionError("'" + typeName + "' object has no attribute 'save'"), [])
  {
  }


  /** The chain of checks of the standalone handler for a JSON object
      holding an image: format, image check, empty reply, missing fence,
      `add_freeform`. The first failing check alone decides the refusal,
      and none of them lets code run. */
  lemma {:induction false} ConvertCheckOrder(fields: map<string, Json>, s: Services)
    requires ImageKey in fields
    ensures var o := Convert(Request(true, Success(Obj(fields))), s);
            !ValidateImageData(fields[ImageKey]) ==> o == Outcome(Error(400, InvalidFormat), [])
    ensures var o := Convert(Request(true, Success(Obj(fields))), s);
            var image := fields[ImageKey];
            ValidateImageData(image) && Extract(image).Success? ==>
              var b := Extract(image).value;
              && (!s.verifyImage(b) ==> o == Outcome(Error(400, InvalidData), []))
              && (s.verifyImage(b) && s.analyze(b) == AiText("") ==>
                    o == Outcome(Error(400, AiFailed), [WroteTemp, AskedAi, RemovedTemp]))
              && (s.verifyImage(b) && s.analyze(b).AiText? && s.analyze(b).content != ""
                  && Fences.PythonCode(s.analyze(b).content).None? ==>
                    o == Outcome(Error(400, NoCode), [WroteTemp, AskedAi, RemovedTemp]))
              && (s.verifyImage(b) && s.analyze(b).AiText? && s.analyze(b).content != ""
                  && Fences.PythonCode(s.analyze(b).content).Some?
                  && Contains(Fences.PythonCode(s.analyze(b).content).value, Forbidden) ==>
                    o == Outcome(Error(400, UsesFreeformMessage), [WroteTemp, AskedAi, RemovedTemp]))
  {
    var data := Obj(fields);
    assert Truthy(data) by {
      assert ImageKey in fields.Keys;
    }
    var image := fields[ImageKey];
    if ValidateImageData(image) && Extract(image).Success? {
      var b := Extract(image).value;
      if s.verifyImage(b) {
        var g := Generate(b, s, None);
        assert g.effects == [WroteTemp, AskedAi] + Consult(s.analyze(b), s.exec, None).effects;
        assert Convert(Request(true, Success(data)), s) == Cleanup(g);
      }
    }
  }

  /** The service handler has no format check: an image value that fails
      to decode escapes to the outer clause as a server error, while one
      that decodes reaches the image check. */
  lemma {:induction false} ServiceDecodesUnchecked(fields: map<string, Json>, s: Services, timestamp: string)
    requires ImageKey in fields && UsernameKey in fields && fields[UsernameKey].Str?
    ensures var o := ConvertService(Request(true, Success(Obj(fields))), s, timestamp);
            var image := fields[ImageKey];
            && (image.Str? && ExtractImageBytes(image.s).Failure? ==>
                  o == Outcome(ServerError(ExtractMessage(ExtractImageBytes(image.s).error)), []))
            && (Extract(image).Success? && !s.verifyImage(Extract(image).value) ==>
                  o == Outcome(Error(400, InvalidData), []))
  {
    assert Truthy(Obj(fields)) by {
      assert ImageKey in fields.Keys;
    }
  }

  /** The delivery step is the only one that depends on the variant. */
  lemma RespondVariants(gated: Result<string, Rejection>, exec: string -> Run, name: string)
    ensures var o1 := Respond(gated, exec, None);
            var o2 := Respond(gated, exec, Some(name));
            && (o1.response != o2.response ==>
                  && gated.Success?
                  && exec(gated.value).Finished?
                  && exec(gated.value).entry.Some?
                  && exec(gated.value).entry.value.Returned?)
            && |o1.effects| <= |o2.effects| && o1.effects == o2.effects[..|o1.effects|]
  {
  }

  lemma ConsultVariants(reply: AiReply, exec: string -> Run, name: string)
    ensures var o1 := Consult(reply, exec, None);
            var o2 := Consult(reply, exec, Some(name));
            && (o1.response != o2.response ==>
                  && |o1.effects| == 1
                  && o1.effects[0].Executed?
                  && exec(o1.effects[0].code).Finished?
                  && exec(o1.effects[0].code).entry.Some?
                  && exec(o1.effects[0].code).entry.value.Returned?)
            && |o1.effects| <= |o2.effects| && o1.effects == o2.effects[..|o1.effects|]
  {
    if reply.AiText? && reply.content != "" {
      RespondVariants(PrepareCode(reply.content), exec, name);
    }
  }

  /** With the same image bytes and outside world, the two handlers give
      the same answer up to the point where `create_slide()` has returned
      an object, and the standalone handler's effects are a prefix of the
      service variant's: they differ only in how that object is saved and
      named. */
  lemma VariantsAgreeBeforeDelivery(bytes: seq<Base64.byte>, s: Services, name: string)
    ensures var o1 := Generate(bytes, s, None);
            var o2 := Generate(bytes, s, Some(name));
            o1.response != o2.response ==>
              && |o1.effects| == 3
              && o1.effects[2].Executed?
              && s.exec(o1.effects[2].code).Finished?
              && s.exec(o1.effects[2].code).entry.Some?
              && s.exec(o1.effects[2].code).entry.value.Returned?
    ensures var o1 := Generate(bytes, s, None);
            var o2 := Generate(bytes, s, Some(name));
            |o1.effects| <= |o2.effects| && o1.effects == o2.effects[..|o1.effects|]
  {
    if s.verifyImage(bytes) {
      var c1 := Consult(s.analyze(bytes), s.exec, None);
      var c2 := Consult(s.analyze(bytes), s.exec, Some(name));
      ConsultVariants(s.analyze(bytes), s.exec, name);
      AskingVariants(c1, c2, s.exec);
      assert Generate(bytes, s, None) == AfterAsking(c1);
      assert Generate(bytes, s, Some(name)) == AfterAsking(c2);
    } else {
      assert Generate(bytes, s, None) == Outcome(Error(400, InvalidData), []);
      assert Generate(bytes, s, Some(name)) == Outcome(Error(400, InvalidData), []);
    }
  }

  /** Prefixing the temporary file and the model call keeps two outcomes
      as alike as they were: the same answer unless the shorter one ended
      in a returned object, and one effect list a prefix of the other. */
  lemma AskingVariants(c1: Outcome, c2: Outcome, exec: string -> Run)
    requires c1.response != c2.response ==>
               && |c1.effects| == 1
               && c1.effects[0].Executed?
               && exec(c1.effects[0].code).Finished?
               && exec(c1.effects[0].code).entry.Some?
               && exec(c1.effects[0].code).entry.value.Returned?
    requires |c1.effects| <= |c2.effects| && c1.effects == c2.effects[..|c1.effects|]
    ensures var o1 := AfterAsking(c1);
            var o2 := AfterAsking(c2);
            && (o1.response != o2.response ==>
                  && |o1.effects| == 3
                  && o1.effects[2].Executed?
                  && exec(o1.effects[2].code).Finished?
                  && exec(o1.effects[2].code).entry.Some?
                  && exec(o1.effects[2].code).entry.value.Returned?)
            && |o1.effects| <= |o2.effects| && o1.effects == o2.effects[..|o1.effects|]
  {
    AskingKeepsPrefix(c1, c2);
  }

  /** Prefixing keeps one effect list a prefix of another. */
  lemma AskingKeepsPrefix(c1: Outcome, c2: Outcome)
    requires |c1.effects| <= |c2.effects| && c1.effects == c2.effects[..|c1.effects|]
    ensures var o1 := AfterAsking(c1);
            var o2 := AfterAsking(c2);
            |o1.effects| <= |o2.effects| && o1.effects == o2.effects[..|o1.effects|]
  {
    assert AfterAsking(c2).effects[..|c1.effects| + 2] == [WroteTemp, AskedAi] + c2.effects[..|c1.effects|];
  }
}

=== FILE: script_gate.dfy ===
/**
 The text checks applied to generated Python before it is handed to
 `exec`: the `add_freeform` deny, the import-header repair, and the
 standalone service `create_ppt_from_gpt_code`. Running the code is an
 oracle: the model observes only what `exec` and `create_slide()` produced.
 */
module ScriptGate {
  import opened Results
  import opened Text
  import Fences
  import Slides

  /** The one builder call the generated code may not mention. */
  const Forbidden := "add_freeform"

  /** Names whose presence makes the import repair unnecessary. */
  const RequiredNames: seq<string> := ["MSO_SHAPE", "MSO_CONNECTOR", "MSO_LINE", "MSO_FILL"]

  /** `from <package> import <first>, <second>` and a line feed. */
  function ImportLine(package: string, first: string, second: string): string {
    "from " + package + " import " + first + ", " + second + "\n"
  }

  const ShapesImport := ImportLine("pptx.enum.shapes", "MSO_SHAPE", "MSO_CONNECTOR")
  const DmlImport := ImportLine("pptx.enum.dml", "MSO_LINE", "MSO_FILL")

  /** The two lines prepended when a required name is missing. */
  const ImportHeader := ShapesImport + DmlImport

  /** `all(imp in ppt_code for imp in required_imports)`. */
  predicate HasRequiredNames(code: string) {
    forall k :: 0 <= k < |RequiredNames| ==> Contains(code, RequiredNames[k])
  }

  lemma ImportLineNames(package: string, first: string, second: string)
    ensures Contains(ImportLine(package, first, second), first)
    ensures Contains(ImportLine(package, first, second), second)
  {
    var head := "from " + package + " import ";
    assert ImportLine(package, first, second) == head + first + (", " + second + "\n");
    ContainsInfix(head, first, ", " + second + "\n");
    assert ImportLine(package, first, second) == (head + first + ", ") + second + "\n";
    ContainsInfix(head + first + ", ", second, "\n");
  }

  lemma HeaderHasRequiredNames()
    ensures HasRequiredNames(ImportHeader)
  {
    ImportLineNames("pptx.enum.shapes", "MSO_SHAPE", "MSO_CONNECTOR");
    ImportLineNames("pptx.enum.dml", "MSO_LINE", "MSO_FILL");
    ContainsExtend(ShapesImport, DmlImport, "MSO_SHAPE");
    ContainsExtend(ShapesImport, DmlImport, "MSO_CONNECTOR");
    ContainsPrepend(ShapesImport, DmlImport, "MSO_LINE");
    ContainsPrepend(ShapesImport, DmlImport, "MSO_FILL");
  }

  lemma ShapesImportLacksD()
    ensures 'd' !in ShapesImport
  {
    assert 'd' !in "from " && 'd' !in "pptx.enum.shapes" && 'd' !in " import ";
    assert 'd' !in "MSO_SHAPE" && 'd' !in ", " && 'd' !in "MSO_CONNECTOR" && 'd' !in "\n";
  }

  /** The header spelled around its only 'd', the one in "dml". */
  lemma HeaderAroundD()
    ensures ImportHeader == (ShapesImport + "from pptx.enum.") + ['d'] + DmlTail
    ensures 'd' !in ShapesImport + "from pptx.enum." && 'd' !in DmlTail
  {
    ShapesImportLacksD();
    assert "pptx.enum.dml" == "pptx.enum." + ['d'] + "ml";
    assert DmlImport == "from " + "pptx.enum." + ['d'] + DmlTail;
    assert 'd' !in "from " && 'd' !in "pptx.enum.";
    assert 'd' !in "ml" && 'd' !in " import " && 'd' !in "MSO_LINE" && 'd' !in ", " && 'd' !in "MSO_FILL";
  }

  const DmlTail := "ml" + " import " + "MSO_LINE" + ", " + "MSO_FILL" + "\n"

  /** The header cannot introduce the forbidden call: it holds a single 'd'
      where "add_freeform" needs two. */
  lemma HeaderLacksForbidden()
    ensures !Contains(ImportHeader, Forbidden)
  {
    HeaderAroundD();
    SingleOccurrence(ShapesImport + "from pptx.enum.", 'd', DmlTail);
    assert Forbidden[1] == 'd' && Forbidden[2] == 'd';
    SingleCharBlocks(ImportHeader, Forbidden, 'd', 1, 2);
  }

  /** The import repair: code naming all four enums is left alone; any
      other code gets the two-line header in front of it. */
  function EnsureImports(code: string): (r: string)
    ensures HasRequiredNames(r)
    ensures HasRequiredNames(code) <==> r == code
    ensures |code| <= |r| && r[|r| - |code|..] == code
  {
    if HasRequiredNames(code) then code
    else
      HeaderHasRequiredNames();
      forall k | 0 <= k < |RequiredNames|
        ensures Contains(ImportHeader + code, RequiredNames[k])
      {
        ContainsExtend(ImportHeader, code, RequiredNames[k]);
      }
      ImportHeader + code
  }

  /** Repairing twice is repairing once. */
  lemma EnsureImportsIdempotent(code: string)
    ensures EnsureImports(EnsureImports(code)) == EnsureImports(code)
  {
  }

  /** The header neither adds nor hides the forbidden call: repaired code
      contains it exactly when the original did. */
  lemma EnsureImportsKeepsForbidden(code: string)
    ensures Contains(EnsureImports(code), Forbidden) <==> Contains(code, Forbidden)
  {
    if !HasRequiredNames(code) {
      HeaderLacksForbidden();
      assert ImportHeader[|ImportHeader| - 1] == '\n';
      assert '\n' !in Forbidden;
      if Contains(ImportHeader + code, Forbidden) {
        ContainsSplit(ImportHeader, code, Forbidden);
      }
      if Contains(code, Forbidden) {
        ContainsPrepend(ImportHeader, code, Forbidden);
      }
    }
  }

  /** Why a reply is refused before anything is executed. */
  datatype Rejection = NoPythonCode | UsesFreeform

  /** Fence extraction, then the `add_freeform` deny, then the import
      repair, in that order: the code both `/convert` handlers execute. */
  function PrepareCode(reply: string): (r: Result<string, Rejection>)
    ensures r == Failure(NoPythonCode) <==> Fences.PythonCode(reply).None?
    ensures r == Failure(UsesFreeform) <==>
              Fences.PythonCode(reply).Some? && Contains(Fences.PythonCode(reply).value, Forbidden)
    ensures r.Success? ==>
              Fences.PythonCode(reply).Some? && r.value == EnsureImports(Fences.PythonCode(reply).value)
    ensures r.Success? ==> !Contains(r.value, Forbidden) && HasRequiredNames(r.value)
  {
    match Fences.PythonCode(reply)
    case None => Failure(NoPythonCode)
    case Some(code) =>
      if Contains(code, Forbidden) then Failure(UsesFreeform)
      else
        EnsureImportsKeepsForbidden(code);
        Success(EnsureImports(code))
  }

  // ---------------------------------------------------------------------
  // Running generated code (oracle)
  // ---------------------------------------------------------------------

  /** The object `create_slide()` returned: one without a `save` attribute
      (named by its Python type), or a presentation whose `save` either
      raised or wrote a deck. */
  datatype Product = Unsaveable(typeName: string) | Saveable(saved: Result<Slides.Deck, string>)

  /** Calling the `create_slide` binding. */
  datatype Call = CallRaised(message: string) | Returned(product: Product)

  /** `exec(code, globals)`: it raised, or it finished with or without a
      `create_slide` binding, which is then called. */
  datatype Run = Raised(message: string) | Finished(entry: Option<Call>)

  const NoCodeMessage := "no valid pyhton code"
  const ForbiddenMessage := "forbidden method: add_freeform()"
  const NoEntryMessage := "create_slide() not defined"

  /** An exception leaving `create_ppt_from_gpt_code`. */
  datatype GptCodeError = ValueError(message: string) | Propagated(message: string)

  /** What `create_ppt_from_gpt_code` did: the code it executed, if any, and
      its return value or exception. */
  datatype Attempt = Attempt(executed: Option<string>, result: Result<Product, GptCodeError>)

  /** `create_ppt_from_gpt_code`: the same extraction and deny as the
      routes, no import repair, and the result of `create_slide()` returned
      unchecked. */
  function CreatePptFromGptCode(code: string, exec: string -> Run): (a: Attempt)
    ensures Fences.PythonCode(code).None? ==>
              a == Attempt(None, Failure(ValueError(NoCodeMessage)))
    ensures Fences.PythonCode(code).Some? && Contains(Fences.PythonCode(code).value, Forbidden) ==>
              a == Attempt(None, Failure(ValueError(ForbiddenMessage)))
    ensures a.executed.Some? ==>
              a.executed == Fences.PythonCode(code) && !Contains(a.executed.value, Forbidden)
    ensures a.executed.Some? && exec(a.executed.value) == Finished(None) ==>
              a.result == Failure(ValueError(NoEntryMessage))
    ensures a.result.Success? ==>
              a.executed.Some? && exec(a.executed.value) == Finished(Some(Returned(a.result.value)))
    ensures Fences.PythonCode(code).Some? && !Contains(Fences.PythonCode(code).value, Forbidden) ==>
              a.executed == Fences.PythonCode(code)
    ensures a.executed.Some? ==>
              match exec(a.executed.value)
              case Raised(m) => a.result == Failure(Propagated(m))
              case Finished(None) => a.result == Failure(ValueError(NoEntryMessage))
              case Finished(Some(CallRaised(m))) => a.result == Failure(Propagated(m))
              case Finished(Some(Returned(p))) => a.result == Success(p)
  {
    match Fences.PythonCode(code)
    case None => Attempt(None, Failure(ValueError(NoCodeMessage)))
    case Some(body) =>
      if Contains(body, Forbidden) then Attempt(None, Failure(ValueError(ForbiddenMessage)))
      else
        var result :=
          match exec(body)
          case Raised(m) => Failure(Propagated(m))
          case Finished(None) => Failure(ValueError(NoEntryMessage))
          case Finished(Some(CallRaised(m))) => Failure(Propagated(m))
          case Finished(Some(Returned(p))) => Success(p);
        Attempt(Some(body), result)
  }
}

=== FILE: slides.dfy ===
/**
 An abstract presentation (the part of a python-pptx `Presentation` the
 converter builds) and the two builders `create_ppt_from_structure` and
 `create_ppt_from_elements`. Unit conversion by `Inches` and `Pt` is kept
 symbolic: shapes carry inches and points.
 */
module Slides {
  import opened Results
  import Text

  /** A positioned piece of text: position and size in inches, font size in
      points (the element dictionaries of the OCR path). */
  datatype Element = Element(text: string, left: real, top: real, width: real, height: real, fontSize: real)

  /** A text box holding a single run. */
  datatype Shape = TextBox(left: real, top: real, width: real, height: real, text: string, fontSize: real)

  /** A slide: its layout index, the title and body placeholders' text when
      the layout has them, and the shapes added to it. */
  datatype Slide = Slide(layout: nat, title: Option<string>, body: Option<string>, shapes: seq<Shape>)

  datatype Deck = Deck(slides: seq<Slide>)

  /** Indices into the default template's `slide_layouts`. */
  const TitleAndContentLayout: nat := 1
  const BlankLayout: nat := 6

  /** The paragraphs python-pptx creates when a text frame's `text` is
      assigned: one per line-feed-separated piece. */
  function Paragraphs(text: string): seq<string> {
    Text.Split(text, '\n')
  }

  /** `create_ppt_from_structure`: one "Title and Content" slide whose body
      is the bullets joined by line feeds. */
  function FromStructure(title: string, bullets: seq<string>): (d: Deck)
    ensures |d.slides| == 1
    ensures d.slides[0].layout == TitleAndContentLayout && d.slides[0].title == Some(title)
    ensures d.slides[0].body.Some? && d.slides[0].shapes == []
  {
    Deck([Slide(TitleAndContentLayout, Some(title), Some(Text.Join(bullets, '\n')), [])])
  }

  /** Each non-empty list of single-line bullets comes back as the body's
      paragraphs, in order. */
  lemma StructureParagraphs(title: string, bullets: seq<string>)
    requires |bullets| >= 1
    requires forall k :: 0 <= k < |bullets| ==> '\n' !in bullets[k]
    ensures Paragraphs(FromStructure(title, bullets).slides[0].body.value) == bullets
  {
    Text.SplitJoin(bullets, '\n');
  }

  /** An empty bullet list still yields one (empty) paragraph. */
  lemma StructureEmptyBullets(title: string)
    ensures Paragraphs(FromStructure(title, []).slides[0].body.value) == [""]
  {
  }

  function TextBoxFor(e: Element): Shape {
    TextBox(e.left, e.top, e.width, e.height, e.text, e.fontSize)
  }

  /** Reading an element back from the text box built for it. */
  function ElementOf(s: Shape): Element {
    Element(s.text, s.left, s.top, s.width, s.height, s.fontSize)
  }

  /** The text boxes of `create_ppt_from_elements`, one per element, in
      element order. */
  function TextBoxes(elements: seq<Element>): (boxes: seq<Shape>)
    ensures |boxes| == |elements|
    ensures forall i :: 0 <= i < |elements| ==> ElementOf(boxes[i]) == elements[i]
  {
    if |elements| == 0 then []
    else [TextBoxFor(elements[0])] + TextBoxes(elements[1..])
  }

  /** `create_ppt_from_elements`: one blank slide with exactly one text box
      per element, in order, carrying that element's text, geometry and
      font size. */
  function FromElements(elements: seq<Element>): (d: Deck)
    ensures |d.slides| == 1 && d.slides[0].layout == BlankLayout
    ensures |d.slides[0].shapes| == |elements|
    ensures forall i :: 0 <= i < |elements| ==> ElementOf(d.slides[0].shapes[i]) == elements[i]
  {
    Deck([Slide(BlankLayout, None, None, TextBoxes(elements))])
  }
}

=== FILE: text.dfy ===
/**
 String helpers with the semantics of the Python `str` operations the
 converter uses: `strip()`, `in`, `find`, `split(sep)` and `sep.join(...)`.
 Strings are sequences of Unicode scalar values.
 */
module Text {
  import opened Results

  /** Python's `str.isspace` for a single character (the characters
      `str.strip()` removes when called without arguments). */
  predicate IsSpace(c: char)
    ensures c == ' ' || c == '\t' || c == '\n' || c == '\r' ==> IsSpace(c)
    ensures '0' <= c <= '9' || 'a' <= c <= 'z' || 'A' <= c <= 'Z' || c == '_' ==> !IsSpace(c)
  {
    var n := c as int;
    || 9 <= n <= 13          // \t \n \v \f \r
    || 28 <= n <= 32         // file/group/record/unit separators and ' '
    || n == 0x85 || n == 0xA0 || n == 0x1680
    || 0x2000 <= n <= 0x200A
    || n == 0x2028 || n == 0x2029 || n == 0x202F || n == 0x205F || n == 0x3000
  }

  predicate AllSpace(s: string) {
    forall i :: 0 <= i < |s| ==> IsSpace(s[i])
  }

  /** True when `s` neither begins nor ends with whitespace. */
  predicate Trimmed(s: string) {
    |s| == 0 || (!IsSpace(s[0]) && !IsSpace(s[|s| - 1]))
  }

  /** Number of leading whitespace characters of `s`. */
  function LeadingSpaces(s: string): (n: nat)
    ensures n <= |s|
    ensures AllSpace(s[..n])
    ensures n < |s| ==> !IsSpace(s[n])
  {
    if |s| == 0 || !IsSpace(s[0]) then 0
    else
      var k := LeadingSpaces(s[1..]);
      assert s[1..][..k] == s[1..k + 1];
      1 + k
  }

  /** Number of trailing whitespace characters of `s`. */
  function TrailingSpaces(s: string): (n: nat)
    ensures n <= |s|
    ensures AllSpace(s[|s| - n..])
    ensures n < |s| ==> !IsSpace(s[|s| - n - 1])
  {
    if |s| == 0 || !IsSpace(s[|s| - 1]) then 0
    else
      var k := TrailingSpaces(s[..|s| - 1]);
      assert s[..|s| - 1][|s| - 1 - k..] == s[|s| - 1 - k..|s| - 1];
      1 + k
  }

  /** The slice `[a, b)` that `s.strip()` keeps. */
  function StripBounds(s: string): (ab: (nat, nat))
    ensures ab.0 <= ab.1 <= |s|
    ensures AllSpace(s[..ab.0]) && AllSpace(s[ab.1..])
    ensures Trimmed(s[ab.0..ab.1])
  {
    var a := LeadingSpaces(s);
    var n := TrailingSpaces(s[a..]);
    SuffixOfSuffix(s, a, n);
    TrimmedSlice(s, a, |s| - n);
    (a, |s| - n)
  }

  /** A suffix of `s[a..]` is a suffix of `s`. */
  lemma SuffixOfSuffix(s: string, a: nat, n: nat)
    requires a <= |s| && n <= |s| - a
    requires AllSpace(s[a..][|s| - a - n..])
    ensures AllSpace(s[|s| - n..])
  {
    assert s[a..][|s| - a - n..] == s[|s| - n..];
  }

  /** A slice whose end characters are not whitespace is trimmed. */
  lemma TrimmedSlice(s: string, a: nat, b: nat)
    requires a <= b <= |s|
    requires a < b ==> !IsSpace(s[a]) && !IsSpace(s[a..][b - a - 1])
    ensures Trimmed(s[a..b])
  {
    if a < b {
      assert s[a..b][0] == s[a];
      assert s[a..b][b - a - 1] == s[a..][b - a - 1];
    }
  }

  /** Python's `s.strip()`. */
  function Strip(s: string): (r: string)
    ensures Trimmed(r)
    ensures |r| <= |s|
  {
    var ab := StripBounds(s);
    s[ab.0..ab.1]
  }

  /** `strip` is the only way to cut whitespace from both ends and leave
      a trimmed middle: any such cut yields `Strip(s)`. */
  lemma StripUnique(s: string, a: nat, b: nat)
    requires a <= b <= |s|
    requires AllSpace(s[..a]) && AllSpace(s[b..]) && Trimmed(s[a..b])
    ensures s[a..b] == Strip(s)
  {
    var ab := StripBounds(s);
    var a', b' := ab.0, ab.1;
    if a == b {
      SpaceJoin(s, a);
      StripEmpty(s);
    } else {
      assert s[a..b][0] == s[a] && s[a..b][b - a - 1] == s[b - 1];
      SpaceBefore(s, a', a);
      SpaceAfter(s, b', b - 1);
      assert s[a'..b'][0] == s[a'] && s[a'..b'][b' - a' - 1] == s[b' - 1];
      SpaceBefore(s, a, a');
      SpaceAfter(s, b, b' - 1);
    }
  }

  /** An all-space prefix followed by an all-space rest is all space. */
  lemma SpaceJoin(s: string, a: nat)
    requires a <= |s| && AllSpace(s[..a]) && AllSpace(s[a..])
    ensures AllSpace(s)
  {
    assert s == s[..a] + s[a..];
  }

  /** A non-space character lies past any all-space prefix. */
  lemma SpaceBefore(s: string, a: nat, x: nat)
    requires a <= |s| && AllSpace(s[..a])
    requires x < |s| && !IsSpace(s[x])
    ensures a <= x
  {
  }

  /** A non-space character lies before any all-space suffix. */
  lemma SpaceAfter(s: string, b: nat, x: nat)
    requires b <= |s| && AllSpace(s[b..])
    requires x < |s| && !IsSpace(s[x])
    ensures x < b
  {
  }

  /** Stripping a string that is already trimmed leaves it unchanged. */
  lemma StripTrimmed(s: string)
    requires Trimmed(s)
    ensures Strip(s) == s
  {
    var a := LeadingSpaces(s);
    if |s| > 0 {
      assert a == 0;
      var t := TrailingSpaces(s[a..]);
      assert s[a..] == s;
      assert t == 0;
    }
  }

  /** `strip()` is idempotent. */
  lemma StripIdempotent(s: string)
    ensures Strip(Strip(s)) == Strip(s)
  {
    StripTrimmed(Strip(s));
  }

  /** `s.strip()` is empty exactly when `s` is all whitespace. */
  lemma StripEmpty(s: string)
    ensures Strip(s) == "" <==> AllSpace(s)
  {
    var ab := StripBounds(s);
    if Strip(s) == "" {
      assert s == s[..ab.0] + s[ab.1..];
    }
    if AllSpace(s) {
      var a := LeadingSpaces(s);
      assert a == |s|;
    }
  }

  // ---------------------------------------------------------------------
  // Substrings
  // ---------------------------------------------------------------------

  predicate StartsWith(s: string, p: string) {
    |p| <= |s| && s[..|p|] == p
  }

  /** `p` occurs in `s` starting at index `i`. */
  predicate OccursAt(s: string, p: string, i: int) {
    0 <= i && i + |p| <= |s| && s[i..i + |p|] == p
  }

  /** Python's `p in s` for two strings. */
  predicate Contains(s: string, p: string) {
    exists i | 0 <= i <= |s| - |p| :: OccursAt(s, p, i)
  }

  /** The least index at or after `from` where `p` occurs in `s`
      (Python's `s.find(p, from)`, with -1 rendered as `None`). */
  function FindFrom(s: string, p: string, from: nat): (r: Option<nat>)
    decreases |s| - from
    ensures r.Some? ==> from <= r.value && OccursAt(s, p, r.value)
    ensures r.Some? ==> forall k :: from <= k < r.value ==> !OccursAt(s, p, k)
    ensures r.None? ==> forall k :: from <= k ==> !OccursAt(s, p, k)
  {
    if from + |p| > |s| then None
    else if s[from..from + |p|] == p then Some(from)
    else FindFrom(s, p, from + 1)
  }

  /** `p` occurs in `a + p + b`. */
  lemma ContainsInfix(a: string, p: string, b: string)
    ensures Contains(a + p + b, p)
  {
    assert (a + p + b)[|a|..|a| + |p|] == p;
    assert OccursAt(a + p + b, p, |a|);
  }

  /** An occurrence in `a` is an occurrence in any extension `a + b`. */
  lemma ContainsExtend(a: string, b: string, p: string)
    requires Contains(a, p)
    ensures Contains(a + b, p)
  {
    var i :| 0 <= i <= |a| - |p| && OccursAt(a, p, i);
    assert (a + b)[i..i + |p|] == a[i..i + |p|];
    assert OccursAt(a + b, p, i);
  }

  /** An occurrence in `b` is an occurrence in `a + b`. */
  lemma ContainsPrepend(a: string, b: string, p: string)
    requires Contains(b, p)
    ensures Contains(a + b, p)
  {
    var i :| 0 <= i <= |b| - |p| && OccursAt(b, p, i);
    assert (a + b)[|a| + i..|a| + i + |p|] == b[i..i + |p|];
    assert OccursAt(a + b, p, |a| + i);
  }

  /** The characters of an occurrence are those of the pattern. */
  lemma OccursAtChar(s: string, p: string, i: int, j: int)
    requires OccursAt(s, p, i) && 0 <= j < |p|
    ensures s[i + j] == p[j]
  {
    assert s[i..i + |p|][j] == s[i + j];
  }

  /** An occurrence inside a slice is an occurrence in the whole string. */
  lemma OccursInSlice(s: string, p: string, a: nat, b: nat, i: int)
    requires a <= b <= |s|
    requires OccursAt(s[a..b], p, i)
    ensures OccursAt(s, p, a + i)
  {
    forall j | 0 <= j < |p|
      ensures s[a + i..a + i + |p|][j] == p[j]
    {
      OccursAtChar(s[a..b], p, i, j);
    }
  }

  /** A slice of a string free of `p` is free of `p`. */
  lemma {:induction false} NotContainsSlice(s: string, p: string, a: nat, b: nat)
    requires a <= b <= |s|
    requires !Contains(s, p)
    ensures !Contains(s[a..b], p)
  {
    forall i | 0 <= i <= |s[a..b]| - |p|
      ensures !OccursAt(s[a..b], p, i)
    {
      if OccursAt(s[a..b], p, i) {
        OccursInSlice(s, p, a, b, i);
      }
    }
  }

  /** An occurrence of `p` in `a + b` that is in neither part must straddle
      the boundary; when `a` ends with a character `p` lacks, it cannot. */
  lemma {:induction false} ContainsSplit(a: string, b: string, p: string)
    requires Contains(a + b, p)
    requires !Contains(a, p)
    requires |a| > 0 && a[|a| - 1] !in p
    ensures Contains(b, p)
  {
    var k :| 0 <= k <= |a + b| - |p| && OccursAt(a + b, p, k);
    if k + |p| <= |a| {
      assert a[k..k + |p|] == (a + b)[k..k + |p|];
      assert OccursAt(a, p, k);
    } else if k < |a| {
      // the last character of `a` would have to occur in `p`
      OccursAtChar(a + b, p, k, |a| - 1 - k);
    } else {
      assert b[k - |a|..k - |a| + |p|] == (a + b)[k..k + |p|];
      assert OccursAt(b, p, k - |a|);
    }
  }

  /** A string lacking one of the pattern's characters cannot contain it. */
  lemma MissingCharBlocks(s: string, p: string, j: nat)
    requires j < |p| && p[j] !in s
    ensures !Contains(s, p)
  {
    forall i | 0 <= i <= |s| - |p|
      ensures !OccursAt(s, p, i)
    {
      if OccursAt(s, p, i) {
        OccursAtChar(s, p, i, j);
      }
    }
  }

  /** A string in which `c` occurs at most at one index cannot contain a
      pattern in which `c` occurs at two indices. */
  lemma {:induction false} SingleCharBlocks(s: string, p: string, c: char, j1: nat, j2: nat)
    requires j1 < j2 < |p| && p[j1] == c && p[j2] == c
    requires forall i, k :: 0 <= i < k < |s| && s[i] == c ==> s[k] != c
    ensures !Contains(s, p)
  {
    forall i | 0 <= i <= |s| - |p|
      ensures !OccursAt(s, p, i)
    {
      if OccursAt(s, p, i) {
        OccursAtChar(s, p, i, j1);
        OccursAtChar(s, p, i, j2);
      }
    }
  }

  /** In `a + [c] + b` with `c` in neither part, `c` occurs only once. */
  lemma SingleOccurrence(a: string, c: char, b: string)
    requires c !in a && c !in b
    ensures forall i, k :: 0 <= i < k < |a + [c] + b| && (a + [c] + b)[i] == c ==> (a + [c] + b)[k] != c
  {
    var s := a + [c] + b;
    forall i, k | 0 <= i < k < |s| && s[i] == c
      ensures s[k] != c
    {
      assert i == |a|;
      assert s[k] == b[k - |a| - 1];
    }
  }

  // ---------------------------------------------------------------------
  // split / join on a single-character separator
  // ---------------------------------------------------------------------

  /** Python's `s.split(sep)` for a one-character separator: the fields
      between separators, always at least one. */
  function Split(s: string, sep: char): (fields: seq<string>)
    ensures |fields| >= 1
    ensures forall k :: 0 <= k < |fields| ==> sep !in fields[k]
  {
    if |s| == 0 then [""]
    else
      var rest := Split(s[1..], sep);
      if s[0] == sep then [""] + rest
      else [[s[0]] + rest[0]] + rest[1..]
  }

  /** Python's `sep.join(parts)`. */
  function Join(parts: seq<string>, sep: char): (s: string)
    ensures |parts| == 0 ==> s == ""
    ensures |parts| >= 1 ==> parts[0] <= s
    ensures |parts| >= 2 ==> sep in s
    ensures (forall k :: 0 <= k < |parts| ==> sep !in parts[k]) && sep in s ==> |parts| >= 2
  {
    if |parts| == 0 then ""
    else if |parts| == 1 then parts[0]
    else parts[0] + [sep] + Join(parts[1..], sep)
  }

  /** Splitting `x + sep + t` where `x` has no separator yields `x` first. */
  lemma {:induction false} SplitHead(x: string, sep: char, t: string)
    requires sep !in x
    ensures Split(x + [sep] + t, sep) == [x] + Split(t, sep)
  {
    if |x| == 0 {
      assert (x + [sep] + t)[1..] == t;
    } else {
      assert (x + [sep] + t)[1..] == x[1..] + [sep] + t;
      SplitHead(x[1..], sep, t);
      assert [x[0]] + x[1..] == x;
    }
  }

  /** A string without the separator splits into itself alone. */
  lemma {:induction false} SplitNoSeparator(s: string, sep: char)
    requires sep !in s
    ensures Split(s, sep) == [s]
  {
    if |s| > 0 {
      SplitNoSeparator(s[1..], sep);
      assert [s[0]] + s[1..] == s;
    }
  }

  /** A split yields more than one field exactly when the separator occurs. */
  lemma {:induction false} SplitSeparated(s: string, sep: char)
    ensures |Split(s, sep)| >= 2 <==> sep in s
  {
    if sep !in s {
      SplitNoSeparator(s, sep);
    } else if s[0] != sep {
      assert sep in s[1..];
      SplitSeparated(s[1..], sep);
    }
  }

  /** `join` and `split` are inverse on non-empty lists of fields that do
      not contain the separator. */
  lemma {:induction false} SplitJoin(parts: seq<string>, sep: char)
    requires |parts| >= 1
    requires forall k :: 0 <= k < |parts| ==> sep !in parts[k]
    ensures Split(Join(parts, sep), sep) == parts
  {
    if |parts| == 1 {
      SplitNoSeparator(parts[0], sep);
    } else {
      SplitJoin(parts[1..], sep);
      SplitHead(parts[0], sep, Join(parts[1..], sep));
      assert [parts[0]] + parts[1..] == parts;
    }
  }
}
